=== FILE: README.md ===
# BigQuery data assistant tools, modelled in Dafny

The data assistant answers natural-language questions over a BigQuery
dataset. A language model chooses between its tools; the tools themselves
are deterministic Python in `data_assistant/tools.py`, and that is what this
project models:

- `cleanup_sql` and the read-only guard of `run_bigquery_validation`
  (`sql_cleanup.dfy`, module `SqlCleanup`): four literal unescape
  replacements, the ` limit 80` append, and the case-insensitive, unanchored
  search for eight DML/DDL keywords.
- the outcome classification and result shaping of `run_bigquery_validation`
  (`validation.dfy`, `rows.dfy`): the BigQuery call is a parameter that
  either raises with a message or returns a result with or without a schema;
  rows become key-to-value dictionaries, dates become `YYYY-MM-DD`, and the
  list is cut to `MAX_NUM_ROWS`.
- `get_bigquery_schema` (`ddl.dfy`): the DDL-like text rendered from the
  ordered list of catalog objects.
- `get_database_settings` / `update_database_settings`, the post-processing
  and state writes of `bq_nl2sql`, and the state writes of
  `get_metadata_description` (`session.dfy`).
- `text.dfy` holds the Python string operations they rely on (`lower`,
  `in`, `replace`, `strip`); `numbers.dfy` holds `MAX_NUM_ROWS` and `str()`
  of a number; `wrappers.dfy` holds `Option` and `Result`.

Everything is a pure function over immutable datatypes. Module-level and
session state are explicit records: the settings cache is an
`Option<Settings>` passed in and returned, and the session state is a
`Session.State` record. Language-model completions, catalog answers and the
query engine are inputs.

Where the code does something other than its docstrings and comments
suggest, the model follows the code:

- The docstring of `run_bigquery_validation`
  (`data_assistant/tools.py:316-321`) promises "Valid SQL. Query executed
  successfully (no results)." when the query "is valid but returns no data",
  but the code tests only `results.schema` (`data_assistant/tools.py:364`).
  A query that returns a schema and no rows therefore yields
  `query_result = []` and no error message
  (`Validation.RunBigqueryValidation`).
- The comment on the last replacement of `cleanup_sql`
  (`data_assistant/tools.py:336`) says it handles escaped newlines "not
  preceded by a backslash", but `str.replace` also rewrites a `\n` whose
  backslash is itself escaped: a backslash, a backslash and `n` become a
  backslash and a newline (`SqlCleanup.UnescapeDoubleBackslashN`).
- The guard has no word boundaries, so `created_at` is rejected
  (`SqlCleanup.CreatedAtIsRejected`), and the limit test is a bare substring
  test, so `credit_limit` suppresses the append
  (`SqlCleanup.CreditLimitSuppressesAppend`).
- `datetime.datetime` is a subclass of `datetime.date`, so timestamps are
  also cut to `YYYY-MM-DD` (`Rows.IsDate`).
- The "metadata" heuristic of `bq_nl2sql` clears `sql_query`, but the
  unconditional write that follows overwrites it
  (`Session.HeuristicDoesNotChangeStoredQuery`).
- A table with no columns loses the opening parenthesis of its
  `CREATE OR REPLACE TABLE` statement, because `ddl_statement[:-2]` then cuts
  the header's own `(\n` (`Ddl.CreateStatementLayout`). The header property
  `Ddl.BlockStartsWithHeader` therefore holds for tables with at least one
  column.
- An engine error whose text is exactly `Contains disallowed DML/DDL
  operations.` produces the same dictionary as a guard rejection
  (`Validation.EngineErrorCanImitateRejection`).

## Model

| member | source | states |
|---|---|---|
| SqlCleanup.CleanupSql | data_assistant/tools.py:324-343 | the output always contains `limit` in some casing; the clause ` limit 80` is appended exactly when the unescaped text has no `limit` substring, and otherwise the unescaped text is returned unchanged |
| SqlCleanup.LimitClauseText | data_assistant/tools.py:341 | the appended clause is `" limit " + str(MAX_NUM_ROWS)`, i.e. ` limit 80` |
| SqlCleanup.Unescape | data_assistant/tools.py:327-337 | the four replacements never lengthen the text and never introduce a backslash that was not there |
| SqlCleanup.UnescapeSingleEscape | data_assistant/tools.py:327-337 | each of the pairs `\"`, backslash-newline, `\'` and `\n`, standing between text without backslashes, becomes `"`, newline, `'` and newline respectively, and nothing else changes |
| SqlCleanup.HasLimit | data_assistant/tools.py:340 | the limit test holds exactly when `limit` occurs somewhere in some casing |
| SqlCleanup.HasDisallowedKeyword | data_assistant/tools.py:352-354 | the guard holds exactly when one of the eight keywords occurs at some position of the lower-cased text |
| SqlCleanup.UnescapeDoubleBackslashN | data_assistant/tools.py:327-337 | the steps run in order and the last one is not held back by a preceding backslash: a backslash, a backslash and `n` between backslash-free text become a backslash and a newline |
| SqlCleanup.UnescapeNoBackslash | data_assistant/tools.py:327-337 | for text without a backslash the four replacement steps are the identity |
| SqlCleanup.CleanupNoBackslash | data_assistant/tools.py:327-343 | for text without a backslash, cleanup returns the text itself when it has a `limit` and the text plus ` limit 80` when it has none |
| SqlCleanup.UnescapeAroundWord | data_assistant/tools.py:327-337 | a word free of backslash, quotes, newline and `n` passes through all four replacements intact and splits them in two |
| SqlCleanup.CleanupKeepsExistingLimit | data_assistant/tools.py:339-343 | if the raw query already contains `limit` in any casing, nothing is appended |
| SqlCleanup.CleanupNeverDuplicatesLimit | data_assistant/tools.py:339-343 | cleaning an already cleaned query never appends a second limit |
| SqlCleanup.CreditLimitSuppressesAppend | data_assistant/tools.py:340-341 | a query mentioning `credit_limit` anywhere gets no limit clause |
| SqlCleanup.GuardIsRegexSearch | data_assistant/tools.py:352-354 | the guard holds exactly when some keyword matches case-insensitively at some position, as `re.search` with `(?i)` and no anchors does |
| SqlCleanup.CreatedAtIsRejected | data_assistant/tools.py:346-354 | a query mentioning `created_at` anywhere is rejected by the guard after cleanup |
| Rows.FormatDate | data_assistant/tools.py:369-370 | the `%Y-%m-%d` text has ten characters with dashes at positions 4 and 7 and reads back as the same date |
| Rows.ShapeCell | data_assistant/tools.py:366-372 | a date or timestamp becomes text that reads back as its date; every other value passes through unchanged; no top-level date value survives |
| Rows.ShapeRow | data_assistant/tools.py:366-373 | the dictionary has the row's keys in the row's order, each value shaped |
| Rows.ShapeRows | data_assistant/tools.py:365-377 | the result has `min(n, 80)` rows, the order-preserving prefix of the shaped rows, with the same keys and no top-level date values |
| Rows.ShapeCommutesWithCut | data_assistant/tools.py:365-377 | shaping all rows and then slicing gives the same list as slicing first and shaping only the kept rows |
| Rows.ShapeRowsIdempotent | data_assistant/tools.py:365-377 | shaping the shaped rows again changes nothing |
| Ddl.FieldDecl | data_assistant/tools.py:100-104 | a column line is two spaces, the back-quoted name, a space and the type, and what follows reads back as the field's repeated flag and description and has exactly the length of ` ARRAY` plus ` COMMENT '...'`, so the line is fixed by the field |
| Ddl.FieldSuffixRoundTrip | data_assistant/tools.py:101-104 | the repeated flag and the description can be read back from the column line: ` ARRAY` appears exactly for `REPEATED`, ` COMMENT '...'` exactly for a non-empty description, and the suffix is exactly as long as those two parts |
| Ddl.SuffixDeterminedByReadBack | data_assistant/tools.py:100-104 | any text that reads back as a field's flag and description and has the suffix's length is that field's suffix, so the read-back and the length pin the column line |
| Ddl.CutTerminatedIsJoin | data_assistant/tools.py:105-107 | appending a separator after every item and cutting the last one off equals joining with the separator |
| Ddl.CreateStatement | data_assistant/tools.py:97-107 | the statement starts with ``CREATE OR REPLACE TABLE `ref` `` and ends with `\n);\n\n`, whatever the columns |
| Ddl.CreateStatementLayout | data_assistant/tools.py:97-107 | the statement is the header, the column lines joined by `,\n` with no trailing comma, and `\n);\n\n`; with no columns the header's `(` is lost |
| Ddl.ValueLiteral | data_assistant/tools.py:116-122 | a string value is written between single quotes, `None` as `NULL`, anything else as its printed text |
| Ddl.OnlyFirstRowsShown | data_assistant/tools.py:110-126 | rows after the fifth never change a table's example section |
| Ddl.InsertStatement | data_assistant/tools.py:114-126 | an example row starts with ``INSERT INTO `ref` VALUES\n`` and ends with `);\n\n`; a row without values would lose its `(` to the cut, a case the schema text never reaches, because the frame's rows hold one value per column and a frame without columns is empty, so its section is skipped; the model does not require rows to match the columns |
| Ddl.ExampleSection | data_assistant/tools.py:109-126 | the section is empty exactly when the table has no rows or no columns, and otherwise is the `-- Example values for table` comment followed by the `INSERT` statements of the first `min(n, 5)` rows, one per row, in order |
| Ddl.InsertStatementsIsConcat | data_assistant/tools.py:113-126 | the loop over the sampled rows writes each row's `INSERT` statement in row order with nothing in between |
| Ddl.TableDdl | data_assistant/tools.py:97-128 | a table's block opens with ``CREATE OR REPLACE TABLE `ref` ``, contains the example comment when the table has rows and columns, and otherwise ends with `\n);\n\n` |
| Ddl.TableDdlLayout | data_assistant/tools.py:97-128 | a table with columns gives exactly the header, its column lines joined by `,\n`, `\n);\n\n`, and, when it has rows, the example comment and the `INSERT` statements of its first `min(n, 5)` rows; a table without columns gives the header without its `(` followed by `\n);\n\n` |
| Ddl.InsertStatementLayout | data_assistant/tools.py:114-126 | an example row is `INSERT INTO ... VALUES` and the comma-joined literals in parentheses, with no comma before `);` |
| Ddl.GetBigquerySchema | data_assistant/tools.py:89-130 | the text is the in-order concatenation of one block per base table |
| Ddl.SchemaOfConcatenation | data_assistant/tools.py:89-130 | the text for two listings one after the other is the two texts one after the other |
| Ddl.NonTablesContributeNothing | data_assistant/tools.py:93-95 | inserting a view or other non-`TABLE` object anywhere in the listing leaves the text unchanged |
| Ddl.BlockStartsWithHeader | data_assistant/tools.py:97 | a table with at least one column opens with ``CREATE OR REPLACE TABLE `ref` (\n`` |
| Session.UpdateDatabaseSettings | data_assistant/tools.py:53-66 | a successful catalog answer gives the settings with the project, the dataset and the rendered schema of its base tables; a failure propagates unchanged |
| Session.GetDatabaseSettings | data_assistant/tools.py:45-66 | the catalog is enumerated exactly when the cache is empty; a cached value is returned unchanged; a successful enumeration fills the cache with the rendered schema; a failure propagates and leaves the cache empty |
| Session.CachedCallsNeverEnumerate | data_assistant/tools.py:45-50 | once the cache holds settings, no later call enumerates and every call returns them |
| Session.EnumeratedExactlyOnce | data_assistant/tools.py:45-50 | when the first enumeration succeeds, any sequence of calls enumerates once and returns the same settings every time |
| Session.StripFences | data_assistant/tools.py:265-267 | the cleaned completion contains no triple backtick and has no leading or trailing whitespace |
| Session.StripFencesWithoutBacktick | data_assistant/tools.py:265-267 | a completion without backticks only loses its surrounding whitespace |
| Session.StripFencesOfFencedQuery | data_assistant/tools.py:265-267 | a query with no two adjacent backticks that does not end with one (back-quoted table names are allowed), wrapped in a triple-backtick fence tagged `sql`, comes back as the trimmed query |
| Session.StripFencesIdempotent | data_assistant/tools.py:265-267 | cleaning a cleaned completion changes nothing |
| Session.LooksLikeMetadata | data_assistant/tools.py:270 | the heuristic fires exactly when `metadata` occurs in the SQL in some casing and `table has` or `describe table` occurs in the question in some casing |
| Session.BqNl2sql | data_assistant/tools.py:265-288 | the returned SQL is the completion with its fences stripped, fence-free and trimmed, `sql_query` holds exactly the returned SQL, `metadata_hint` is written exactly when the heuristic fires, and no other key changes |
| Session.HeuristicDoesNotChangeStoredQuery | data_assistant/tools.py:269-286 | the returned SQL and the stored `sql_query` do not depend on the question, so the heuristic's `sql_query = None` never survives |
| Session.GetMetadataDescription | data_assistant/tools.py:182-197 | with no tool model configured the error text is returned and nothing is written; otherwise the stripped answer is stored and `sql_query` and `query_result` are cleared |
| Session.MetadataForgetsEarlierQuery | data_assistant/tools.py:193-197 | once a tool model is configured, the answer and the state afterwards do not depend on the SQL text, rows or earlier answer held before |
| Validation.RunBigqueryValidation | data_assistant/tools.py:345-391 | a guard hit returns the disallowed-operations message without calling the engine or touching state; otherwise the cleaned text goes to the engine, a raised message m gives `Invalid SQL: ` + m, a result without schema gives the no-results message, and a result with schema gives the shaped rows, no error, and `state["query_result"]` set to them |
| Validation.ResultDecodesToOutcome | data_assistant/tools.py:349-391 | the dictionary always reads back as exactly one of rejected, invalid with the engine's message, valid-empty, or valid with the shaped rows, matching the guard and engine, except an engine message equal to the guard's reason |
| Validation.EngineErrorCanImitateRejection | data_assistant/tools.py:352-391 | an engine error reading `Contains disallowed DML/DDL operations.` yields the guard's dictionary |
| Validation.OnlyRowsPathWritesState | data_assistant/tools.py:360-391 | the state changes only on the rows path, and only in `query_result` |
| Validation.SubmittedQueryHasLimit | data_assistant/tools.py:346-361 | the text the engine receives carries a `limit` and no disallowed keyword |
| Validation.RowCapOnResults | data_assistant/tools.py:365-379 | on the rows path the result holds `min(n, 80)` rows, the shaped first rows in order |
| Text.Strip | data_assistant/tools.py:267 | `str.strip()`: the result is a slice of the input, everything cut off is whitespace, and the result neither starts nor ends with whitespace |
| Text.FenceRemovalLeavesNoFence | data_assistant/tools.py:267 | removing every triple backtick in one left-to-right pass leaves no triple backtick |

## Left out

- Language-model calls (`llm_client.models.generate_content`) and the prompt
  text of `bq_nl2sql` and `get_metadata_description`: the completion text is
  an input string. A completion whose `text` is `None` (which would raise in
  `sql.lower()`) is not modelled.
- BigQuery client calls (`list_tables`, `get_table`,
  `list_rows(...).to_dataframe()`, `query().result()`) and the client
  singleton `get_bq_client`: the catalog is a `Result` over a list of table
  descriptors, the engine a function from query text to an outcome. An
  exception raised while iterating the result rows is folded into the
  engine's `Raised` outcome.
- The `str()` rendering of non-string example values and pandas' conversion
  of missing numbers to `NaN`: such a value carries its printed text
  (`Ddl.PrintedValue`).
- `get_env_var` (its module is not part of this model): a missing
  `AGENT_TOOL_MODEL` is an empty tool-model name.
- Logging and `print` output; module-level environment configuration.
- `agent.py`, `data_assistant/agent.py` and `data_assistant/prompts.py`:
  agent configuration and instruction text; the question routing and the SQL
  repair loop exist only as instructions to the language model, so there is
  no code bound on retries to model.
- Session state does not distinguish a key that was never written from a
  key holding `None`.
- SqlCleanup.GuardIsRegexSearch: case-insensitivity covers ASCII letters
  only; Python's Unicode case folding (for example `ſ` matching `s`) is not
  modelled.
- SqlCleanup.CleanupSql: `str.lower()` is modelled for ASCII letters only;
  Python lower-cases the whole Unicode range.
- SqlCleanup.HasLimit: "some casing" means ASCII case only, for the same
  reason.
- SqlCleanup.HasDisallowedKeyword: lower-casing is ASCII only, for the same
  reason.
- Session.LooksLikeMetadata: "some casing" means ASCII case only, for the
  same reason.
- Rows.ShapeCell: dates nested inside `ARRAY` or `STRUCT` values (lists
  and dictionaries of `datetime.date`) are not converted by the source and
  are not modelled; such cells are `OtherCell` values carrying their printed
  text, so "no date survives" covers top-level values only.
- Rows.FormatDate: `%Y` is rendered with four digits; for years below 1000
  the padding of the C library's `strftime` is platform-dependent.

=== FILE: ddl.dfy ===
/**
 * `get_bigquery_schema`: the DDL-like text that grounds every prompt. One
 * block per base table: a `CREATE OR REPLACE TABLE` statement with one line
 * per column, then up to five example rows as `INSERT` statements.
 *
 * The Python code builds each list by appending an item and a separator, then
 * cutting the last separator off (`ddl_statement[:-2]`,
 * `example_row_str[:-1]`); the functions below follow that construction,
 * and the lemmas relate it to a plain separator join.
 */
module Ddl {
  import opened Text
  import opened Numbers

  /** A column of `table_obj.schema`. An absent and an empty description
      are both falsy in Python, so both are the empty string here. */
  datatype Field = Field(name: string, fieldType: string, mode: string, description: string)

  /** A value of an example row: a Python `str`, `None`, or anything else,
      which is printed with `str()` (given here as its printed text). */
  datatype ExampleValue = StrValue(text: string) | NoneValue | PrintedValue(printed: string)

  /** What the catalog returns for one listed table: its id, its
      `table_type` (`TABLE`, `VIEW`, ...), its fields, and the rows
      `list_rows` would page through, each as the frame holds it; in the
      source every row has one value per column, which the model does not
      require. */
  datatype TableObj = TableObj(tableId: string, tableType: string, schema: seq<Field>, rows: seq<seq<ExampleValue>>)

  /** `max_results` of the example-row request. */
  const ExampleRowLimit: nat := 5

  /** `str(dataset_ref.table(table_id))`. */
  function TableRef(projectId: string, datasetId: string, tableId: string): string {
    projectId + "." + datasetId + "." + tableId
  }

  function DropLast(s: string, n: nat): (r: string)
    requires n <= |s|
    ensures |r| == |s| - n
  {
    s[..|s| - n]
  }

  /** Joins the parts with the separator between consecutive parts. */
  function Join(parts: seq<string>, sep: string): string {
    if |parts| == 0 then ""
    else if |parts| == 1 then parts[0]
    else parts[0] + sep + Join(parts[1..], sep)
  }

  /** Each part followed by the separator, as the loops accumulate them. */
  function Terminated(parts: seq<string>, sep: string): (r: string)
    ensures |parts| > 0 ==> |r| >= |sep|
  {
    if |parts| == 0 then "" else parts[0] + sep + Terminated(parts[1..], sep)
  }

  /** Cutting the final separator off a terminated list leaves the join:
      there is no trailing separator. */
  lemma {:induction false} CutTerminatedIsJoin(head: string, parts: seq<string>, sep: string)
    requires |parts| > 0
    ensures DropLast(head + Terminated(parts, sep), |sep|) == head + Join(parts, sep)
    decreases |parts|
  {
    var whole := head + Terminated(parts, sep);
    assert DropLast(whole, |sep|) == whole[..|whole| - |sep|];
    if |parts| == 1 {
      assert Terminated(parts, sep) == parts[0] + sep;
      assert whole == (head + parts[0]) + sep;
    } else {
      var h' := head + parts[0] + sep;
      var rest := h' + Terminated(parts[1..], sep);
      CutTerminatedIsJoin(h', parts[1..], sep);
      assert DropLast(rest, |sep|) == rest[..|rest| - |sep|];
      assert whole == rest;
    }
  }

  /** The text that follows the column name and type. */
  function FieldSuffix(f: Field): string {
    (if f.mode == "REPEATED" then " ARRAY" else "")
    + (if f.description != "" then " COMMENT '" + f.description + "'" else "")
  }

  /** One column line without its separator: the quoted name and the type,
      followed by a suffix from which the repeated flag and the description
      read back, and which is no longer than ` ARRAY` for a `REPEATED` field
      plus ` COMMENT '...'` for a described one. */
  function FieldDecl(f: Field): (r: string)
    ensures var head := "  `" + f.name + "` " + f.fieldType;
      && |head| <= |r| && r[..|head|] == head
      && ParseFieldSuffix(r[|head|..]) == (f.mode == "REPEATED", f.description)
      && |r| == |head| + SuffixLength(f)
  {
    var head := "  `" + f.name + "` " + f.fieldType;
    var r := head + FieldSuffix(f);
    assert r[..|head|] == head && r[|head|..] == FieldSuffix(f);
    FieldSuffixRoundTrip(f);
    r
  }

  /** Reads the repeated flag and the description back from a column
      suffix. */
  function ParseFieldSuffix(s: string): (bool, string) {
    var repeated := StartsWith(s, " ARRAY");
    var rest := if repeated then s[6..] else s;
    var comment := if StartsWith(rest, " COMMENT '") && |rest| >= 11 && rest[|rest| - 1] == '\''
      then rest[10..|rest| - 1] else "";
    (repeated, comment)
  }

  /** The length of the ` ARRAY` tag when the field is `REPEATED`, plus
      that of ` COMMENT '...'` when it has a description. */
  function SuffixLength(f: Field): nat {
    (if f.mode == "REPEATED" then 6 else 0) + (if f.description != "" then |f.description| + 11 else 0)
  }

  /** A column line tags ` ARRAY` exactly for `REPEATED` fields and carries
      ` COMMENT '...'` exactly when the field has a description: both can be
      read back from the line, and the suffix holds nothing else. */
  lemma FieldSuffixRoundTrip(f: Field)
    ensures ParseFieldSuffix(FieldSuffix(f)) == (f.mode == "REPEATED", f.description)
    ensures |FieldSuffix(f)| == SuffixLength(f)
  {
    var arr := if f.mode == "REPEATED" then " ARRAY" else "";
    var com := if f.description != "" then " COMMENT '" + f.description + "'" else "";
    var s := FieldSuffix(f);
    assert s == arr + com;
    if f.mode == "REPEATED" {
      assert s[..6] == " ARRAY";
      assert s[6..] == com;
    } else if f.description != "" {
      assert s[..6] != " ARRAY" by { assert s[1] == 'C'; }
    }
    var rest := if f.mode == "REPEATED" then s[6..] else s;
    assert rest == com;
    if f.description != "" {
      assert com[..10] == " COMMENT '";
      assert |com| == 11 + |f.description| && com[|com| - 1] == '\'';
      assert com[10..|com| - 1] == f.description;
    }
  }

  /** The read-back and the length pin the suffix down: a suffix that
      reads back as a field's flag and description and is as long as that
      field's tags is that field's suffix. So ` ARRAY` appears only for
      `REPEATED` fields and ` COMMENT '...'` only for described ones. */
  lemma {:induction false} SuffixDeterminedByReadBack(s: string, f: Field)
    requires ParseFieldSuffix(s) == (f.mode == "REPEATED", f.description)
    requires |s| == SuffixLength(f)
    ensures s == FieldSuffix(f)
  {
    var arr := if f.mode == "REPEATED" then " ARRAY" else "";
    var rest := if f.mode == "REPEATED" then s[6..] else s;
    assert s == arr + rest;
    if f.description != "" {
      var com := " COMMENT '" + f.description + "'";
      assert |rest| == |com|;
      assert rest[..10] == com[..10];
      assert rest[10..|rest| - 1] == com[10..|com| - 1];
      assert rest[|rest| - 1] == com[|com| - 1];
      assert rest == rest[..10] + rest[10..|rest| - 1] + [rest[|rest| - 1]];
      assert com == com[..10] + com[10..|com| - 1] + [com[|com| - 1]];
    } else {
      assert |rest| == 0;
    }
  }

  function FieldDecls(fields: seq<Field>): seq<string> {
    seq(|fields|, i requires 0 <= i < |fields| => FieldDecl(fields[i]))
  }

  function CreateHeader(ref: string): string {
    "CREATE OR REPLACE TABLE `" + ref + "` (\n"
  }

  /** The text every block opens with, whether or not the table has
      columns. */
  function CreatePrefix(ref: string): string {
    "CREATE OR REPLACE TABLE `" + ref + "` "
  }

  /** The closing of a `CREATE` statement. */
  const CreateClosing := "\n);\n\n"

  /** The `CREATE OR REPLACE TABLE` statement as the loop builds it: it
      names the table and ends with the closing parenthesis and a blank
      line. */
  function CreateStatement(ref: string, fields: seq<Field>): (r: string)
    ensures StartsWith(r, CreatePrefix(ref))
    ensures EndsWith(r, CreateClosing)
  {
    var built := CreateHeader(ref) + Terminated(FieldDecls(fields), ",\n");
    assert CreateHeader(ref) == CreatePrefix(ref) + "(\n";
    assert built[..|CreatePrefix(ref)|] == CreatePrefix(ref);
    var cut := DropLast(built, 2);
    assert cut[..|CreatePrefix(ref)|] == CreatePrefix(ref);
    var r := cut + CreateClosing;
    assert r[..|CreatePrefix(ref)|] == CreatePrefix(ref);
    assert r[|r| - |CreateClosing|..] == CreateClosing;
    r
  }

  /** The statement lists the column lines separated by `,\n`, with no comma
      after the last one. A table without columns loses the opening
      parenthesis, because the cut then removes the header's own `(\n`. */
  lemma CreateStatementLayout(ref: string, fields: seq<Field>)
    ensures |fields| > 0 ==>
      CreateStatement(ref, fields) == CreateHeader(ref) + Join(FieldDecls(fields), ",\n") + "\n);\n\n"
    ensures |fields| == 0 ==>
      CreateStatement(ref, fields) == "CREATE OR REPLACE TABLE `" + ref + "` \n);\n\n"
  {
    if |fields| > 0 {
      CutTerminatedIsJoin(CreateHeader(ref), FieldDecls(fields), ",\n");
    } else {
      assert CreateHeader(ref) + "" == "CREATE OR REPLACE TABLE `" + ref + "` " + "(\n";
    }
  }

  /** How one example value is written inside `VALUES (...)`: a string
      between single quotes, `None` as `NULL`, anything else as printed. */
  function ValueLiteral(v: ExampleValue): (r: string)
    ensures v.StrValue? ==> |r| == |v.text| + 2 && r[0] == '\'' == r[|r| - 1] && r[1..|r| - 1] == v.text
    ensures v.NoneValue? ==> r == "NULL"
    ensures v.PrintedValue? ==> r == v.printed
  {
    match v
    case StrValue(s) => "'" + s + "'"
    case NoneValue => "NULL"
    case PrintedValue(p) => p
  }

  function ValueLiterals(values: seq<ExampleValue>): seq<string> {
    seq(|values|, i requires 0 <= i < |values| => ValueLiteral(values[i]))
  }

  function InsertPrefix(ref: string): string {
    "INSERT INTO `" + ref + "` VALUES\n"
  }

  /** One example row as the loop builds it: it names the table and ends
      with `);` and a blank line. A row without values loses its opening
      parenthesis to the cut. */
  function InsertStatement(ref: string, values: seq<ExampleValue>): (r: string)
    ensures StartsWith(r, InsertPrefix(ref))
    ensures EndsWith(r, ");\n\n")
    ensures |values| == 0 ==> r == InsertPrefix(ref) + ");\n\n"
  {
    var r := InsertPrefix(ref) + DropLast("(" + Terminated(ValueLiterals(values), ","), 1) + ");\n\n";
    assert r[..|InsertPrefix(ref)|] == InsertPrefix(ref);
    assert r[|r| - 4..] == ");\n\n";
    r
  }

  /** The values are comma-separated inside the parentheses, with no comma
      before `);`. */
  lemma InsertStatementLayout(ref: string, values: seq<ExampleValue>)
    requires |values| > 0
    ensures InsertStatement(ref, values)
      == "INSERT INTO `" + ref + "` VALUES\n(" + Join(ValueLiterals(values), ",") + ");\n\n"
  {
    CutTerminatedIsJoin("(", ValueLiterals(values), ",");
  }

  function InsertStatements(ref: string, rows: seq<seq<ExampleValue>>): string {
    if |rows| == 0 then "" else InsertStatement(ref, rows[0]) + InsertStatements(ref, rows[1..])
  }

  /** The `INSERT` statement of each row, in row order. */
  function InsertParts(ref: string, rows: seq<seq<ExampleValue>>): seq<string> {
    seq(|rows|, i requires 0 <= i < |rows| => InsertStatement(ref, rows[i]))
  }

  /** The loop over the sampled rows writes each row's statement, in order,
      with nothing between them. */
  lemma {:induction false} InsertStatementsIsConcat(ref: string, rows: seq<seq<ExampleValue>>)
    ensures InsertStatements(ref, rows) == Join(InsertParts(ref, rows), "")
    decreases |rows|
  {
    if |rows| == 1 {
      assert InsertStatements(ref, rows) == InsertStatement(ref, rows[0]) + "";
    } else if |rows| > 1 {
      InsertStatementsIsConcat(ref, rows[1..]);
      assert InsertParts(ref, rows)[1..] == InsertParts(ref, rows[1..]);
      assert InsertParts(ref, rows)[0] + "" == InsertParts(ref, rows)[0];
    }
  }

  /** The example section: skipped when the sample frame is empty (no rows
      or no columns), otherwise a comment line followed by the `INSERT`
      statements of the first `min(n, 5)` rows, one per row, in order. */
  function ExampleSection(ref: string, t: TableObj): (r: string)
    ensures r == "" <==> (|t.rows| == 0 || |t.schema| == 0)
    ensures r != "" ==> StartsWith(r, ExampleComment(ref))
    ensures r != "" ==> r == ExampleComment(ref) + Join(InsertParts(ref, t.rows[..Min(|t.rows|, ExampleRowLimit)]), "")
  {
    var sample := t.rows[..Min(|t.rows|, ExampleRowLimit)];
    if |sample| == 0 || |t.schema| == 0 then ""
    else
      var r := ExampleComment(ref) + InsertStatements(ref, sample);
      assert r[..|ExampleComment(ref)|] == ExampleComment(ref);
      InsertStatementsIsConcat(ref, sample);
      r
  }

  function ExampleComment(ref: string): string {
    "-- Example values for table `" + ref + "`:\n"
  }

  /** Only the first five rows of a table can show up in its text. */
  lemma OnlyFirstRowsShown(ref: string, t: TableObj, more: seq<seq<ExampleValue>>)
    requires |t.rows| >= ExampleRowLimit
    ensures ExampleSection(ref, t.(rows := t.rows + more)) == ExampleSection(ref, t)
  {
    assert (t.rows + more)[..ExampleRowLimit] == t.rows[..ExampleRowLimit];
  }

  /** The block of one base table: it opens with the `CREATE` statement
      for the table; the example comment follows exactly when the table has
      rows and columns, and otherwise the block ends with the statement's
      closing. */
  function TableDdl(projectId: string, datasetId: string, t: TableObj): (r: string)
    ensures StartsWith(r, CreatePrefix(TableRef(projectId, datasetId, t.tableId)))
    ensures |t.rows| > 0 && |t.schema| > 0 ==> Contains(r, ExampleComment(TableRef(projectId, datasetId, t.tableId)))
    ensures |t.rows| == 0 || |t.schema| == 0 ==>
      EndsWith(r, CreateClosing)
  {
    var ref := TableRef(projectId, datasetId, t.tableId);
    BlockLayout(ref, t);
    CreateStatement(ref, t.schema) + ExampleSection(ref, t)
  }

  /** The whole block of a base table: a table with columns gives the
      header, its column lines joined by `,\n`, the closing, and the
      `INSERT` statements of its first `min(n, 5)` rows after the example
      comment; a table without columns gives the header without its `(`
      and the closing only. */
  lemma TableDdlLayout(projectId: string, datasetId: string, t: TableObj)
    ensures var ref := TableRef(projectId, datasetId, t.tableId);
      |t.schema| > 0 ==>
        TableDdl(projectId, datasetId, t)
        == CreateHeader(ref) + Join(FieldDecls(t.schema), ",\n") + CreateClosing
           + (if |t.rows| == 0 then ""
              else ExampleComment(ref) + Join(InsertParts(ref, t.rows[..Min(|t.rows|, ExampleRowLimit)]), ""))
    ensures var ref := TableRef(projectId, datasetId, t.tableId);
      |t.schema| == 0 ==> TableDdl(projectId, datasetId, t) == CreatePrefix(ref) + CreateClosing
  {
    var ref := TableRef(projectId, datasetId, t.tableId);
    CreateStatementLayout(ref, t.schema);
    assert |t.schema| == 0 ==> "CREATE OR REPLACE TABLE `" + ref + "` \n);\n\n" == CreatePrefix(ref) + CreateClosing;
  }

  lemma BlockLayout(ref: string, t: TableObj)
    ensures var r := CreateStatement(ref, t.schema) + ExampleSection(ref, t);
      && StartsWith(r, CreatePrefix(ref))
      && (|t.rows| > 0 && |t.schema| > 0 ==> Contains(r, ExampleComment(ref)))
      && (|t.rows| == 0 || |t.schema| == 0 ==> EndsWith(r, CreateClosing))
  {
    StatementThenSection(ref, CreateStatement(ref, t.schema), ExampleSection(ref, t));
  }

  /** A statement followed by an optional example section keeps the
      statement's opening, shows the section's comment, and ends with the
      statement's closing when the section is empty. */
  lemma StatementThenSection(ref: string, c: string, e: string)
    requires StartsWith(c, CreatePrefix(ref))
    requires EndsWith(c, CreateClosing)
    requires e != "" ==> StartsWith(e, ExampleComment(ref))
    ensures StartsWith(c + e, CreatePrefix(ref))
    ensures e != "" ==> Contains(c + e, ExampleComment(ref))
    ensures e == "" ==> EndsWith(c + e, CreateClosing)
  {
    assert (c + e)[..|CreatePrefix(ref)|] == c[..|CreatePrefix(ref)|];
    if e != "" {
      assert Contains(e, ExampleComment(ref));
      ContainsInMiddle(c, e, "", ExampleComment(ref));
      assert c + e + "" == c + e;
    } else {
      assert c + e == c;
    }
  }

  predicate IsBaseTable(t: TableObj) {
    t.tableType == "TABLE"
  }

  /** The listed objects that are base tables, in listing order. */
  function BaseTables(tables: seq<TableObj>): (r: seq<TableObj>)
    ensures forall i :: 0 <= i < |r| ==> IsBaseTable(r[i])
    ensures |r| <= |tables|
  {
    if |tables| == 0 then []
    else if IsBaseTable(tables[0]) then [tables[0]] + BaseTables(tables[1..])
    else BaseTables(tables[1..])
  }

  function Blocks(projectId: string, datasetId: string, tables: seq<TableObj>): string {
    if |tables| == 0 then "" else TableDdl(projectId, datasetId, tables[0]) + Blocks(projectId, datasetId, tables[1..])
  }

  /** `get_bigquery_schema`: the loop over the listed tables, skipping
      anything that is not a base table. Its text is the in-order
      concatenation of the blocks of the base tables. */
  function GetBigquerySchema(projectId: string, datasetId: string, tables: seq<TableObj>): (r: string)
    ensures r == Blocks(projectId, datasetId, BaseTables(tables))
  {
    if |tables| == 0 then ""
    else if !IsBaseTable(tables[0]) then GetBigquerySchema(projectId, datasetId, tables[1..])
    else TableDdl(projectId, datasetId, tables[0]) + GetBigquerySchema(projectId, datasetId, tables[1..])
  }

  /** The text of two listings is the text of each, in order. */
  lemma {:induction false} SchemaOfConcatenation(projectId: string, datasetId: string, a: seq<TableObj>, b: seq<TableObj>)
    ensures GetBigquerySchema(projectId, datasetId, a + b)
         == GetBigquerySchema(projectId, datasetId, a) + GetBigquerySchema(projectId, datasetId, b)
    decreases |a|
  {
    if |a| > 0 {
      assert (a + b)[1..] == a[1..] + b;
      SchemaOfConcatenation(projectId, datasetId, a[1..], b);
    } else {
      assert a + b == b;
    }
  }

  /** Views and other non-base objects contribute nothing, wherever they
      are listed. */
  lemma NonTablesContributeNothing(projectId: string, datasetId: string, a: seq<TableObj>, t: TableObj, b: seq<TableObj>)
    requires !IsBaseTable(t)
    ensures GetBigquerySchema(projectId, datasetId, a + [t] + b) == GetBigquerySchema(projectId, datasetId, a + b)
  {
    SchemaOfConcatenation(projectId, datasetId, a + [t], b);
    SchemaOfConcatenation(projectId, datasetId, a, [t]);
    SchemaOfConcatenation(projectId, datasetId, a, b);
  }

  /** Every block of a table with at least one column opens with the
      `CREATE OR REPLACE TABLE` header. */
  lemma BlockStartsWithHeader(projectId: string, datasetId: string, t: TableObj)
    requires |t.schema| > 0
    ensures StartsWith(TableDdl(projectId, datasetId, t), CreateHeader(TableRef(projectId, datasetId, t.tableId)))
  {
    var ref := TableRef(projectId, datasetId, t.tableId);
    CreateStatementLayout(ref, t.schema);
    var h := CreateHeader(ref);
    assert TableDdl(projectId, datasetId, t)[..|h|] == h;
  }
}

=== FILE: numbers.dfy ===
/** Decimal rendering of numbers and the row cap shared by the tools. */
module Numbers {

  /** `MAX_NUM_ROWS`: the row cap of the whole tool set. */
  const MaxNumRows: nat := 80

  function Min(a: int, b: int): int {
    if a <= b then a else b
  }

  predicate IsDigit(c: char) {
    '0' <= c <= '9'
  }

  function DigitChar(d: nat): (c: char)
    requires d < 10
    ensures IsDigit(c)
  {
    ('0' as int + d) as char
  }

  /** `str(n)` for a natural number. */
  function Decimal(n: nat): (r: string)
    ensures |r| > 0
    ensures forall k :: 0 <= k < |r| ==> IsDigit(r[k])
  {
    if n < 10 then [DigitChar(n)] else Decimal(n / 10) + [DigitChar(n % 10)]
  }

  /** Reads a string of decimal digits back as a number. */
  function DecimalValue(s: string): nat
    requires forall k :: 0 <= k < |s| ==> IsDigit(s[k])
  {
    if |s| == 0 then 0
    else
      assert IsDigit(s[|s| - 1]);
      10 * DecimalValue(s[..|s| - 1]) + (s[|s| - 1] as int - '0' as int)
  }

  /** The decimal rendering is read back as the same number. */
  lemma {:induction false} DecimalRoundTrip(n: nat)
    ensures DecimalValue(Decimal(n)) == n
  {
    if n >= 10 {
      var s := Decimal(n);
      assert s[..|s| - 1] == Decimal(n / 10);
      DecimalRoundTrip(n / 10);
    }
  }
}

=== FILE: rows.dfy ===
/**
 * Result shaping in `run_bigquery_validation`: every BigQuery row becomes a
 * plain key-to-value dictionary, date values become `YYYY-MM-DD` text, and
 * the list is cut to `MAX_NUM_ROWS` rows.
 */
module Rows {
  import opened Wrappers
  import opened Numbers

  /** `datetime.MINYEAR` .. `datetime.MAXYEAR`. */
  type Year = y: int | 1 <= y <= 9999 witness 1
  type Month = m: int | 1 <= m <= 12 witness 1
  type Day = d: int | 1 <= d <= 31 witness 1

  datatype CalendarDate = CalendarDate(year: Year, month: Month, day: Day)

  /** A value of a result row as the BigQuery client hands it over. */
  datatype Cell =
    | NullCell                                             // None
    | TextCell(text: string)                               // str
    | DateCell(date: CalendarDate)                         // datetime.date (DATE)
    | DateTimeCell(date: CalendarDate, timeOfDay: string)  // datetime.datetime (DATETIME, TIMESTAMP)
    | OtherCell(repr: string)                              // numbers, booleans, bytes, datetime.time, ...

  /** `isinstance(value, datetime.date)`: `datetime.datetime` is a
      subclass of `datetime.date`, so timestamps count as dates. */
  predicate IsDate(c: Cell) {
    c.DateCell? || c.DateTimeCell?
  }

  /** `n` as exactly `width` zero-padded digits. */
  function Padded(n: nat, width: nat): (r: string)
    ensures |r| == width
    ensures forall k :: 0 <= k < |r| ==> IsDigit(r[k])
  {
    if width == 0 then [] else Padded(n / 10, width - 1) + [DigitChar(n % 10)]
  }

  function Pow10(k: nat): nat {
    if k == 0 then 1 else 10 * Pow10(k - 1)
  }

  lemma {:induction false} PaddedRoundTrip(n: nat, width: nat)
    requires n < Pow10(width)
    ensures DecimalValue(Padded(n, width)) == n
  {
    if width > 0 {
      var r := Padded(n, width);
      assert r[..|r| - 1] == Padded(n / 10, width - 1);
      PaddedRoundTrip(n / 10, width - 1);
    }
  }

  /** Reads `YYYY-MM-DD` text back as a calendar date. */
  function ParseDate(s: string): Option<CalendarDate> {
    if |s| == 10 && s[4] == '-' && s[7] == '-'
       && (forall k :: 0 <= k < 10 && k != 4 && k != 7 ==> IsDigit(s[k]))
    then
      var y, m, d := DecimalValue(s[..4]), DecimalValue(s[5..7]), DecimalValue(s[8..]);
      if 1 <= y <= 9999 && 1 <= m <= 12 && 1 <= d <= 31 then Some(CalendarDate(y, m, d)) else None
    else None
  }

  /** `strftime("%Y-%m-%d")`: ten characters that read back as the date. */
  function FormatDate(d: CalendarDate): (r: string)
    ensures |r| == 10 && r[4] == '-' && r[7] == '-'
    ensures ParseDate(r) == Some(d)
  {
    var y, m, dd := Padded(d.year, 4), Padded(d.month, 2), Padded(d.day, 2);
    PaddedRoundTrip(d.year, 4);
    PaddedRoundTrip(d.month, 2);
    PaddedRoundTrip(d.day, 2);
    var r := y + "-" + m + "-" + dd;
    assert r[..4] == y && r[5..7] == m && r[8..] == dd;
    r
  }

  /** The value expression of the dictionary comprehension: dates become
      their text, everything else passes through unchanged. */
  function ShapeCell(c: Cell): (r: Cell)
    ensures !IsDate(r)
    ensures IsDate(c) ==> r.TextCell? && ParseDate(r.text) == Some(c.date)
    ensures !IsDate(c) ==> r == c
  {
    if IsDate(c) then TextCell(FormatDate(c.date)) else c
  }

  /** Shaping a cell twice is shaping it once. */
  lemma ShapeCellIdempotent(c: Cell)
    ensures ShapeCell(ShapeCell(c)) == ShapeCell(c)
  {
  }

  predicate DistinctKeys(items: seq<(string, Cell)>) {
    forall i, j :: 0 <= i < j < |items| ==> items[i].0 != items[j].0
  }

  /** A result row, or the dictionary made of it: column names and values
      in column order, each name once (a BigQuery `Row` indexes its values
      through a name-to-position dictionary). */
  type Row = items: seq<(string, Cell)> | DistinctKeys(items) witness []

  /** `{key: shape(value) for (key, value) in row.items()}`. */
  function ShapeRow(row: Row): (r: Row)
    ensures |r| == |row|
    ensures forall i :: 0 <= i < |row| ==> r[i].0 == row[i].0 && r[i].1 == ShapeCell(row[i].1)
  {
    var r := seq(|row|, i requires 0 <= i < |row| => (row[i].0, ShapeCell(row[i].1)));
    assert forall i :: 0 <= i < |r| ==> r[i].0 == row[i].0;
    r
  }

  /** The list comprehension over all result rows, before slicing. */
  function ShapeAll(rows: seq<Row>): (r: seq<Row>)
    ensures |r| == |rows|
    ensures forall i :: 0 <= i < |rows| ==> r[i] == ShapeRow(rows[i])
  {
    if |rows| == 0 then [] else [ShapeRow(rows[0])] + ShapeAll(rows[1..])
  }

  /** The rows of `final_result["query_result"]`: the order-preserving
      prefix of at most `MAX_NUM_ROWS` shaped rows, each with its source
      row's keys in order and no date value left. */
  function ShapeRows(rows: seq<Row>): (r: seq<Row>)
    ensures |r| == Min(|rows|, MaxNumRows)
    ensures forall i :: 0 <= i < |r| ==> r[i] == ShapeRow(rows[i])
    ensures forall i :: 0 <= i < |r| ==>
      && |r[i]| == |rows[i]|
      && forall j :: 0 <= j < |r[i]| ==> r[i][j].0 == rows[i][j].0 && !IsDate(r[i][j].1)
  {
    ShapeAll(rows)[..Min(|rows|, MaxNumRows)]
  }

  /** Shaping every row and then cutting is cutting and then shaping. */
  lemma {:induction false} ShapeCommutesWithCut(rows: seq<Row>, n: nat)
    requires n <= |rows|
    ensures ShapeAll(rows)[..n] == ShapeAll(rows[..n])
  {
    var a, b := ShapeAll(rows)[..n], ShapeAll(rows[..n]);
    assert |a| == |b|;
    forall i | 0 <= i < n ensures a[i] == b[i] {
      assert rows[..n][i] == rows[i];
    }
  }

  /** Shaping is idempotent on its own output. */
  lemma ShapeRowsIdempotent(rows: seq<Row>)
    ensures ShapeAll(ShapeRows(rows)) == ShapeRows(rows)
  {
    var r := ShapeRows(rows);
    forall i | 0 <= i < |r| ensures ShapeRow(r[i]) == r[i] {
      var a := ShapeRow(r[i]);
      forall j | 0 <= j < |a| ensures a[j] == r[i][j] {
        ShapeCellIdempotent(rows[i][j].1);
      }
    }
  }
}

=== FILE: session.dfy ===
/**
 * The tool functions that only update state: the memoised database
 * settings (`get_database_settings`, `update_database_settings`), the
 * post-processing and state writes of `bq_nl2sql`, and the state writes of
 * `get_metadata_description`. Language-model completions and catalog
 * answers are inputs.
 */
module Session {
  import opened Wrappers
  import opened Text
  import opened Ddl
  import opened Rows

  /** The session-state keys the tools write. A key that was never written
      and a key that holds `None` are both `None` here. */
  datatype State = State(
    sqlQuery: Option<string>,
    queryResult: Option<seq<Row>>,
    metadataHint: Option<string>,
    metadataAnswer: Option<string>)

  /** The `database_settings` dictionary. */
  datatype Settings = Settings(bqProjectId: string, bqDatasetId: string, bqDdlSchema: string)

  /** What one call of `get_database_settings` returns, the module-level
      cache afterwards, and whether it enumerated the catalog. */
  datatype SettingsCall = SettingsCall(result: Result<Settings, string>, cache: Option<Settings>, enumerated: bool)

  /** `update_database_settings`: enumerate the catalog and render it. The
      catalog answer is an input; its failure propagates as the error. */
  function UpdateDatabaseSettings(projectId: string, datasetId: string, catalog: Result<seq<TableObj>, string>)
    : (r: Result<Settings, string>)
    ensures r.Success? <==> catalog.Success?
    ensures catalog.Failure? ==> r.error == catalog.error
    ensures catalog.Success? ==>
      && r.value.bqProjectId == projectId && r.value.bqDatasetId == datasetId
      && r.value.bqDdlSchema == Blocks(projectId, datasetId, BaseTables(catalog.value))
  {
    match catalog
    case Success(tables) => Success(Settings(projectId, datasetId, GetBigquerySchema(projectId, datasetId, tables)))
    case Failure(e) => Failure(e)
  }

  /** `get_database_settings`: the catalog is enumerated only while the
      cache is empty; a cached value is returned whatever the catalog would
      now say; a failed enumeration leaves the cache empty. */
  function GetDatabaseSettings(cache: Option<Settings>, projectId: string, datasetId: string,
                               catalog: Result<seq<TableObj>, string>): (c: SettingsCall)
    ensures c.enumerated <==> cache.None?
    ensures cache.Some? ==> c.result == Success(cache.value) && c.cache == cache
    ensures cache.None? && catalog.Success? ==>
      && c.result.Success?
      && c.cache == Some(c.result.value)
      && c.result.value.bqProjectId == projectId
      && c.result.value.bqDatasetId == datasetId
      && c.result.value.bqDdlSchema == Blocks(projectId, datasetId, BaseTables(catalog.value))
    ensures cache.None? && catalog.Failure? ==> c.result == Failure(catalog.error) && c.cache == None
  {
    if cache.Some? then SettingsCall(Success(cache.value), cache, false)
    else
      var r := UpdateDatabaseSettings(projectId, datasetId, catalog);
      SettingsCall(r, if r.Success? then Some(r.value) else None, true)
  }

  /** Successive calls, one per catalog answer the call would see. */
  function Calls(cache: Option<Settings>, projectId: string, datasetId: string,
                 catalogs: seq<Result<seq<TableObj>, string>>): seq<SettingsCall>
    decreases |catalogs|
  {
    if |catalogs| == 0 then []
    else
      var c := GetDatabaseSettings(cache, projectId, datasetId, catalogs[0]);
      [c] + Calls(c.cache, projectId, datasetId, catalogs[1..])
  }

  function Enumerations(calls: seq<SettingsCall>): nat {
    if |calls| == 0 then 0 else (if calls[0].enumerated then 1 else 0) + Enumerations(calls[1..])
  }

  /** Once the cache is filled, no later call enumerates, and every call
      returns the cached settings. */
  lemma {:induction false} CachedCallsNeverEnumerate(s: Settings, projectId: string, datasetId: string,
                                                    catalogs: seq<Result<seq<TableObj>, string>>)
    ensures var calls := Calls(Some(s), projectId, datasetId, catalogs);
      Enumerations(calls) == 0 && forall i :: 0 <= i < |calls| ==> calls[i].result == Success(s)
    decreases |catalogs|
  {
    if |catalogs| > 0 {
      CachedCallsNeverEnumerate(s, projectId, datasetId, catalogs[1..]);
    }
  }

  /** Memoisation: when the first enumeration succeeds, any number of calls
      enumerate the catalog exactly once and all return the same settings. */
  lemma EnumeratedExactlyOnce(projectId: string, datasetId: string, catalogs: seq<Result<seq<TableObj>, string>>)
    requires |catalogs| > 0 && catalogs[0].Success?
    ensures var calls := Calls(None, projectId, datasetId, catalogs);
      && Enumerations(calls) == 1
      && forall i :: 0 <= i < |calls| ==> calls[i].result == calls[0].result
  {
    var first := GetDatabaseSettings(None, projectId, datasetId, catalogs[0]);
    CachedCallsNeverEnumerate(first.result.value, projectId, datasetId, catalogs[1..]);
  }

  /** The fence with its language tag, removed before plain fences. */
  const SqlFence := "```sql"

  /** `sql.replace("```sql", "").replace("```", "").strip()`, applied when
      the completion text is non-empty. */
  function StripFences(text: string): (r: string)
    ensures !Contains(r, Fence)
    ensures |r| == 0 || (!IsSpace(r[0]) && !IsSpace(r[|r| - 1]))
  {
    if text == "" then text
    else
      var unfenced := ReplaceAll(ReplaceAll(text, SqlFence, ""), Fence, "");
      FenceRemovalLeavesNoFence(ReplaceAll(text, SqlFence, ""));
      StripKeepsAbsence(unfenced, Fence);
      Strip(unfenced)
  }

  /** Text that contains a longer word contains its prefix. */
  lemma ContainsPrefixWord(s: string, w: string, v: string)
    requires Contains(s, w + v)
    ensures Contains(s, w)
  {
    ContainsIffOccurs(s, w + v);
    var i :| OccursAt(s, w + v, i);
    assert s[i..i + |w|] == (w + v)[..|w|];
    assert OccursAt(s, w, i);
    ContainsIffOccurs(s, w);
  }

  /** Fence stripping is idempotent: its output is already fence-free and
      trimmed. */
  lemma StripFencesIdempotent(text: string)
    ensures StripFences(StripFences(text)) == StripFences(text)
  {
    var x := StripFences(text);
    if x != "" {
      if Contains(x, SqlFence) {
        assert SqlFence == Fence + "sql";
        ContainsPrefixWord(x, Fence, "sql");
      }
      ReplaceAllAbsent(x, SqlFence, "");
      ReplaceAllAbsent(x, Fence, "");
      StripTrimmed(x);
    }
  }

  /** A completion without backticks only loses its surrounding
      whitespace. */
  lemma StripFencesWithoutBacktick(text: string)
    requires '`' !in text
    ensures StripFences(text) == Strip(text)
  {
    if text != "" {
      assert text + "" == text;
      ReplaceAllSkipsWordWithoutFirst(text, "", SqlFence, "");
      ReplaceAllSkipsWordWithoutFirst(text, "", Fence, "");
    }
  }

  /** Text in which no two backticks stand side by side and which does not
      end with one: back-quoted identifiers such as `` `project.dataset.table` ``
      qualify. */
  predicate SingleBackticks(q: string) {
    && (forall i :: 0 <= i < |q| - 1 ==> q[i] != '`' || q[i + 1] != '`')
    && (|q| == 0 || q[|q| - 1] != '`')
  }

  /** No fence starts inside such text, whatever fence follows it. */
  lemma NoFenceStartsInside(q: string, p: string)
    requires SingleBackticks(q)
    requires |p| >= 2 && p[0] == '`' && p[1] == '`'
    ensures forall i :: 0 <= i < |q| ==> !StartsWith((q + Fence)[i..], p)
  {
    forall i | 0 <= i < |q| ensures !StartsWith((q + Fence)[i..], p) {
      var t := (q + Fence)[i..];
      assert t[0] == q[i];
      assert i + 1 < |q| ==> t[1] == q[i + 1];
      assert t[0] != '`' || t[1] != '`';
      assert |p| <= |t| ==> t[..|p|][0] == t[0] && t[..|p|][1] == t[1];
    }
  }

  /** A query wrapped in a fence tagged `sql` comes back as the query,
      trimmed, whatever whitespace surrounds it inside the fence, provided
      it holds no run of backticks and does not end with one. */
  lemma StripFencesOfFencedQuery(q: string)
    requires SingleBackticks(q)
    ensures StripFences(SqlFence + q + Fence) == Strip(q)
  {
    var text := SqlFence + q + Fence;
    assert text[..|SqlFence|] == SqlFence && text[|SqlFence|..] == q + Fence;
    assert ReplaceAll(text, SqlFence, "") == ReplaceAll(q + Fence, SqlFence, "");
    NoFenceStartsInside(q, SqlFence);
    ReplaceAllSkipsPiece(q, Fence, SqlFence, "");
    assert ReplaceAll(Fence, SqlFence, "") == Fence;
    NoFenceStartsInside(q, Fence);
    ReplaceAllSkipsPiece(q, Fence, Fence, "");
    assert ReplaceAll(Fence, Fence, "") == "";
    assert q + "" == q;
  }

  /** The heuristic of `bq_nl2sql` for a completion that declined to write
      SQL. */
  function LooksLikeMetadata(sql: string, question: string): (r: bool)
    ensures r <==>
      && (exists i :: IgnoreCaseMatchAt(sql, "metadata", i))
      && ((exists i :: IgnoreCaseMatchAt(question, "table has", i))
          || (exists i :: IgnoreCaseMatchAt(question, "describe table", i)))
  {
    LowerSearchIsIgnoreCaseSearch(sql, "metadata");
    LowerSearchIsIgnoreCaseSearch(question, "table has");
    LowerSearchIsIgnoreCaseSearch(question, "describe table");
    && Contains(Lower(sql), "metadata")
    && (Contains(Lower(question), "table has") || Contains(Lower(question), "describe table"))
  }

  datatype Nl2Sql = Nl2Sql(sql: string, state: State)

  /** `bq_nl2sql` after the completion arrives: strip the fences, run the
      heuristic (which stores a hint and clears `sql_query`), then store the
      SQL under `sql_query` in every case. */
  function BqNl2sql(question: string, completion: string, state: State): (out: Nl2Sql)
    ensures out.sql == StripFences(completion)
    ensures !Contains(out.sql, Fence)
    ensures |out.sql| == 0 || (!IsSpace(out.sql[0]) && !IsSpace(out.sql[|out.sql| - 1]))
    ensures out.state.sqlQuery == Some(out.sql)
    ensures out.state.metadataHint == (if LooksLikeMetadata(out.sql, question) then Some(out.sql) else state.metadataHint)
    ensures out.state.queryResult == state.queryResult && out.state.metadataAnswer == state.metadataAnswer
  {
    var sql := StripFences(completion);
    var hinted := if LooksLikeMetadata(sql, question) then state.(sqlQuery := None, metadataHint := Some(sql)) else state;
    Nl2Sql(sql, hinted.(sqlQuery := Some(sql)))
  }

  /** The heuristic's `sql_query = None` is always overwritten: the stored
      query is the returned text whether the heuristic fires or not. */
  lemma HeuristicDoesNotChangeStoredQuery(question: string, otherQuestion: string, completion: string, state: State)
    ensures BqNl2sql(question, completion, state).state.sqlQuery
         == BqNl2sql(otherQuestion, completion, state).state.sqlQuery
    ensures BqNl2sql(question, completion, state).sql == BqNl2sql(otherQuestion, completion, state).sql
  {
  }

  /** The answer `get_metadata_description` gives when no tool model is set. */
  const ModelNotConfigured := "Error: Model for metadata description not configured."

  datatype Described = Described(answer: string, state: State)

  /** `get_metadata_description` after the completion arrives. An empty
      tool-model name returns the configuration error and writes nothing;
      otherwise the stripped answer is stored and the SQL and result keys
      are cleared. */
  function GetMetadataDescription(toolModel: string, completion: string, state: State): (out: Described)
    ensures toolModel == "" ==> out == Described(ModelNotConfigured, state)
    ensures toolModel != "" ==>
      && out.answer == Strip(completion)
      && out.state.metadataAnswer == Some(out.answer)
      && out.state.sqlQuery.None? && out.state.queryResult.None?
      && out.state.metadataHint == state.metadataHint
  {
    if toolModel == "" then Described(ModelNotConfigured, state)
    else
      var answer := Strip(completion);
      Described(answer, state.(metadataAnswer := Some(answer), sqlQuery := None, queryResult := None))
  }

  /** After the metadata tool runs, nothing of an earlier data-retrieval
      turn is left: two sessions with the same metadata hint end in the same
      state with the same answer, whatever SQL text, rows or earlier answer
      they held. */
  lemma MetadataForgetsEarlierQuery(toolModel: string, completion: string, s1: State, s2: State)
    requires toolModel != ""
    requires s1.metadataHint == s2.metadataHint
    ensures GetMetadataDescription(toolModel, completion, s1) == GetMetadataDescription(toolModel, completion, s2)
  {
  }
}

=== FILE: sql_cleanup.dfy ===
/**
 * The text-level checks `run_bigquery_validation` applies before it sends a
 * query to BigQuery: `cleanup_sql` (escape removal and the row-limit clause)
 * and the case-insensitive DML/DDL keyword guard.
 */
module SqlCleanup {
  import opened Text
  import opened Numbers

  /** The clause appended when a query carries no limit:
      `" limit " + str(MAX_NUM_ROWS)`. */
  const LimitClause: string := " limit 80"

  lemma LimitClauseText()
    ensures LimitClause == " limit " + Decimal(MaxNumRows)
  {
  }

  /** The appended clause always brings a `limit` with it. */
  lemma AppendedClauseHasLimit(u: string)
    ensures HasLimit(u + LimitClause)
  {
    var s := u + LimitClause;
    assert s[|u| + 1..|u| + 6] == "limit";
    assert IgnoreCaseMatchAt(s, "limit", |u| + 1);
  }

  /** The four literal replacements of `cleanup_sql`, in order: `\"` to `"`,
      backslash-newline to newline, `\'` to `'`, and the two characters `\n`
      to a newline. */
  function Unescape(sql: string): (r: string)
    ensures |r| <= |sql|
    ensures '\\' in r ==> '\\' in sql
  {
    var s1 := ReplaceAll(sql, "\\\"", "\"");
    var s2 := ReplaceAll(s1, "\\\n", "\n");
    var s3 := ReplaceAll(s2, "\\'", "'");
    ReplaceAllNoLonger(sql, "\\\"", "\"");
    ReplaceAllNoLonger(s1, "\\\n", "\n");
    ReplaceAllNoLonger(s2, "\\'", "'");
    ReplaceAllNoLonger(s3, "\\n", "\n");
    assert '\\' !in sql ==> '\\' !in ReplaceAll(s3, "\\n", "\n") by {
      if '\\' !in sql {
        ReplaceAllKeepsCharOut(sql, "\\\"", "\"", '\\');
        ReplaceAllKeepsCharOut(s1, "\\\n", "\n", '\\');
        ReplaceAllKeepsCharOut(s2, "\\'", "'", '\\');
        ReplaceAllKeepsCharOut(s3, "\\n", "\n", '\\');
      }
    }
    ReplaceAll(s3, "\\n", "\n")
  }

  /** The characters that occur in some escape sequence `cleanup_sql` removes. */
  predicate InEscape(c: char) {
    c == '\\' || c == '"' || c == '\n' || c == '\'' || c == 'n'
  }

  /** A pattern that starts with a backslash cannot occur in text without one. */
  lemma NoBackslashNoMatch(s: string, p: string)
    requires |p| > 0 && p[0] == '\\'
    requires '\\' !in s
    ensures !Contains(s, p)
  {
    forall i | 0 <= i && i + |p| <= |s| ensures !OccursAt(s, p, i) {
      assert s[i..i + |p|][0] == s[i];
    }
    ContainsIffOccurs(s, p);
  }

  /** Without a backslash the four unescape steps change nothing. */
  lemma UnescapeNoBackslash(sql: string)
    requires '\\' !in sql
    ensures Unescape(sql) == sql
  {
    NoBackslashNoMatch(sql, "\\\"");
    ReplaceAllAbsent(sql, "\\\"", "\"");
    NoBackslashNoMatch(sql, "\\\n");
    ReplaceAllAbsent(sql, "\\\n", "\n");
    NoBackslashNoMatch(sql, "\\'");
    ReplaceAllAbsent(sql, "\\'", "'");
    NoBackslashNoMatch(sql, "\\n");
    ReplaceAllAbsent(sql, "\\n", "\n");
  }

  /** The escape pairs `cleanup_sql` replaces, in the order it replaces
      them, each with its replacement. */
  const Escapes: seq<(string, string)> :=
    [("\\\"", "\""), ("\\\n", "\n"), ("\\'", "'"), ("\\n", "\n")]

  /** One replacement step on an escape pair between backslash-free text:
      the pair is replaced exactly when it is the step's pattern. */
  lemma PairStep(a: string, e: string, b: string, p: string, r: string)
    requires '\\' !in a && '\\' !in b
    requires |e| == 2 && e[0] == '\\' && e[1] != '\\'
    requires |p| == 2 && p[0] == '\\'
    ensures ReplaceAll(a + e + b, p, r) == if e == p then a + r + b else a + e + b
  {
    assert a + e + b == a + (e + b);
    ReplaceAllSkipsWordWithoutFirst(a, e + b, p, r);
    assert ReplaceAll(b, p, r) == b by {
      assert b + "" == b;
      ReplaceAllSkipsWordWithoutFirst(b, "", p, r);
    }
    if e == p {
      assert (e + b)[..2] == p && (e + b)[2..] == b;
    } else {
      PairMismatchStep(e, b, p, r);
    }
  }

  lemma PairMismatchStep(e: string, b: string, p: string, r: string)
    requires |e| == 2 && e[1] != '\\'
    requires |p| == 2 && p[0] == '\\' && e != p
    ensures ReplaceAll(e + b, p, r) == e + ReplaceAll(b, p, r)
  {
    assert (e + b)[..2] == e;
    assert (e + b)[1..] == [e[1]] + b;
    ReplaceAllSkipsWordWithoutFirst([e[1]], b, p, r);
    assert [e[0]] + ([e[1]] + ReplaceAll(b, p, r)) == e + ReplaceAll(b, p, r);
  }

  /** One replacement step on text holding at most the backslash that opens
      the escape pair `e`: text without a backslash is left alone. */
  lemma EscapeStep(t: string, a: string, e: string, b: string, p: string, r: string)
    requires '\\' !in a && '\\' !in b
    requires |e| == 2 && e[0] == '\\' && e[1] != '\\'
    requires |p| == 2 && p[0] == '\\'
    requires t == a + e + b || '\\' !in t
    ensures '\\' !in t ==> ReplaceAll(t, p, r) == t
    ensures t == a + e + b ==> ReplaceAll(t, p, r) == if e == p then a + r + b else a + e + b
  {
    if '\\' !in t {
      NoBackslashNoMatch(t, p);
      ReplaceAllAbsent(t, p, r);
    } else {
      PairStep(a, e, b, p, r);
    }
  }

  /** Each escape pair, standing between backslash-free text, is replaced
      by its character and nothing else changes: the meaning of the four
      replacements of `cleanup_sql`. */
  lemma UnescapeSingleEscape(a: string, k: int, b: string)
    requires 0 <= k < |Escapes|
    requires '\\' !in a && '\\' !in b
    ensures Unescape(a + Escapes[k].0 + b) == a + Escapes[k].1 + b
  {
    var e := Escapes[k].0;
    var t0 := a + e + b;
    var t1 := ReplaceAll(t0, "\\\"", "\"");
    EscapeStep(t0, a, e, b, "\\\"", "\"");
    var t2 := ReplaceAll(t1, "\\\n", "\n");
    EscapeStep(t1, a, e, b, "\\\n", "\n");
    var t3 := ReplaceAll(t2, "\\'", "'");
    EscapeStep(t2, a, e, b, "\\'", "'");
    EscapeStep(t3, a, e, b, "\\n", "\n");
  }

  /** A step whose pattern is not `\n` on a backslash, a backslash and `n`
      between backslash-free text: the first backslash never starts a
      match of a pattern whose second character is not a backslash, and the
      pair after it is not the pattern, so nothing changes. */
  lemma DoubleBackslashMiss(a: string, b: string, p: string, r: string)
    requires '\\' !in a && '\\' !in b
    requires |p| == 2 && p[0] == '\\' && p[1] != '\\' && p != "\\n"
    ensures ReplaceAll(a + "\\\\n" + b, p, r) == a + "\\\\n" + b
  {
    DoubleBackslashSplit(a, b, p, r);
    LeadingPairStep(b, p, r);
    DoubleBackslashShape(a, b);
  }

  /** The step whose pattern is `\n` on the same text replaces the pair
      after the escaped backslash. */
  lemma DoubleBackslashHit(a: string, b: string, r: string)
    requires '\\' !in a && '\\' !in b
    ensures ReplaceAll(a + "\\\\n" + b, "\\n", r) == a + ("\\" + (r + b))
  {
    DoubleBackslashSplit(a, b, "\\n", r);
    LeadingPairStep(b, "\\n", r);
  }

  lemma DoubleBackslashShape(a: string, b: string)
    ensures a + ("\\" + ("\\n" + b)) == a + "\\\\n" + b
  {
    assert "\\" + "\\n" == "\\\\n";
    assert "\\" + ("\\n" + b) == "\\\\n" + b;
  }

  /** The pair `\n` at the front of backslash-free text is replaced
      exactly by its own step. */
  lemma LeadingPairStep(b: string, p: string, r: string)
    requires '\\' !in b
    requires |p| == 2 && p[0] == '\\'
    ensures ReplaceAll("\\n" + b, p, r) == if p == "\\n" then r + b else "\\n" + b
  {
    assert ReplaceAll(b, p, r) == b by {
      NoBackslashNoMatch(b, p);
      ReplaceAllAbsent(b, p, r);
    }
    var t := "\\n" + b;
    assert t[..2] == "\\n";
    if p == "\\n" {
      assert t[2..] == b;
    } else {
      PairMismatchStep("\\n", b, p, r);
    }
  }

  /** The text before the escaped backslash is copied and the escaped
      backslash itself is kept. */
  lemma DoubleBackslashSplit(a: string, b: string, p: string, r: string)
    requires '\\' !in a
    requires |p| == 2 && p[0] == '\\' && p[1] != '\\'
    ensures ReplaceAll(a + "\\\\n" + b, p, r) == a + ("\\" + ReplaceAll("\\n" + b, p, r))
  {
    var tail := ReplaceAll("\\n" + b, p, r);
    calc {
      ReplaceAll(a + "\\\\n" + b, p, r);
      { assert a + "\\\\n" + b == a + ("\\\\n" + b); }
      ReplaceAll(a + ("\\\\n" + b), p, r);
      { ReplaceAllSkipsWordWithoutFirst(a, "\\\\n" + b, p, r); }
      a + ReplaceAll("\\\\n" + b, p, r);
      { EscapedBackslashStep(b, p, r); }
      a + ("\\" + tail);
    }
  }

  /** A backslash followed by the pair `\n`: no match starts at the first
      backslash. */
  lemma EscapedBackslashStep(b: string, p: string, r: string)
    requires |p| == 2 && p[0] == '\\' && p[1] != '\\'
    ensures ReplaceAll("\\\\n" + b, p, r) == "\\" + ReplaceAll("\\n" + b, p, r)
  {
    var t := "\\\\n" + b;
    assert t[..2] != p;
    assert t[1..] == "\\n" + b;
  }

  /** The fourth step also rewrites a `\n` whose backslash is itself
      escaped: a backslash, a backslash and `n` become a backslash and a
      newline, because the steps run in the order of `cleanup_sql`. */
  lemma UnescapeDoubleBackslashN(a: string, b: string)
    requires '\\' !in a && '\\' !in b
    ensures Unescape(a + "\\\\n" + b) == a + "\\\n" + b
  {
    DoubleBackslashMiss(a, b, "\\\"", "\"");
    DoubleBackslashMiss(a, b, "\\\n", "\n");
    DoubleBackslashMiss(a, b, "\\'", "'");
    DoubleBackslashHit(a, b, "\n");
    assert "\\" + ("\n" + b) == "\\\n" + b;
  }

  /** Text free of escape characters passes through unescaping untouched
      and separates what stands before it from what stands after it. */
  lemma UnescapeAroundWord(a: string, x: string, b: string)
    requires |x| > 0
    requires forall k :: 0 <= k < |x| ==> !InEscape(x[k])
    ensures Unescape(a + x + b) == Unescape(a) + x + Unescape(b)
  {
    var a1, b1 := ReplaceAll(a, "\\\"", "\""), ReplaceAll(b, "\\\"", "\"");
    ReplaceAllAroundWord(a, x, b, "\\\"", "\"");
    var a2, b2 := ReplaceAll(a1, "\\\n", "\n"), ReplaceAll(b1, "\\\n", "\n");
    ReplaceAllAroundWord(a1, x, b1, "\\\n", "\n");
    var a3, b3 := ReplaceAll(a2, "\\'", "'"), ReplaceAll(b2, "\\'", "'");
    ReplaceAllAroundWord(a2, x, b2, "\\'", "'");
    ReplaceAllAroundWord(a3, x, b3, "\\n", "\n");
  }

  /** `"limit" in s.lower()`. */
  function HasLimit(s: string): (r: bool)
    ensures r <==> exists i :: IgnoreCaseMatchAt(s, "limit", i)
  {
    LowerSearchIsIgnoreCaseSearch(s, "limit");
    Contains(Lower(s), "limit")
  }

  /** `cleanup_sql`: unescape, then append ` limit 80` exactly when the
      lower-cased text has no `limit` substring anywhere. */
  function CleanupSql(sql: string): (r: string)
    ensures HasLimit(r)
    ensures HasLimit(Unescape(sql)) ==> r == Unescape(sql)
    ensures !HasLimit(Unescape(sql)) ==> r == Unescape(sql) + LimitClause
  {
    var u := Unescape(sql);
    if HasLimit(u) then u
    else
      AppendedClauseHasLimit(u);
      u + LimitClause
  }

  /** Without a backslash, cleanup is the identity up to the appended clause. */
  lemma CleanupNoBackslash(sql: string)
    requires '\\' !in sql
    ensures HasLimit(sql) ==> CleanupSql(sql) == sql
    ensures !HasLimit(sql) ==> CleanupSql(sql) == sql + LimitClause
  {
    UnescapeNoBackslash(sql);
  }

  /** A `limit` already present in the raw text, in any casing, survives
      unescaping, so cleanup never appends a second one. */
  lemma CleanupKeepsExistingLimit(sql: string)
    requires HasLimit(sql)
    ensures CleanupSql(sql) == Unescape(sql)
  {
    ContainsIffOccurs(Lower(sql), "limit");
    var i :| OccursAt(Lower(sql), "limit", i);
    var a, x, b := sql[..i], sql[i..i + 5], sql[i + 5..];
    assert sql == a + x + b;
    LimitWindowIsEscapeFree(sql, i, x);
    UnescapeAroundWord(a, x, b);
    assert Lower(x) == "limit" by {
      assert Lower(x) == Lower(sql)[i..i + 5];
    }
    assert OccursAt(Lower(x), "limit", 0);
    ContainsIffOccurs(Lower(x), "limit");
    LowerKeepsLoweredOccurrence(Unescape(a), x, Unescape(b), "limit");
  }

  /** The letters of `limit`, in any casing, belong to no escape sequence. */
  lemma LimitWindowIsEscapeFree(sql: string, i: int, x: string)
    requires OccursAt(Lower(sql), "limit", i) && x == sql[i..i + 5]
    ensures forall k :: 0 <= k < |x| ==> !InEscape(x[k])
  {
    forall k | 0 <= k < |x| ensures !InEscape(x[k]) {
      var c := x[k];
      assert LowerChar(c) == Lower(sql)[i..i + 5][k] == "limit"[k];
      assert "limit"[k] == 'l' || "limit"[k] == 'i' || "limit"[k] == 'm' || "limit"[k] == 't';
    }
  }

  /** Cleaning an already cleaned query appends nothing. */
  lemma CleanupNeverDuplicatesLimit(sql: string)
    ensures CleanupSql(CleanupSql(sql)) == Unescape(CleanupSql(sql))
  {
    CleanupKeepsExistingLimit(CleanupSql(sql));
  }

  /** A word free of escape characters comes out of cleanup unchanged,
      between the cleaned text before it and the cleaned text after it. */
  lemma CleanupAroundWord(a: string, x: string, b: string)
    requires |x| > 0
    requires forall k :: 0 <= k < |x| ==> !InEscape(x[k])
    ensures var ua, ub := Unescape(a), Unescape(b);
      CleanupSql(a + x + b) == ua + x + (if HasLimit(ua + x + ub) then ub else ub + LimitClause)
  {
    UnescapeAroundWord(a, x, b);
  }

  /** `w` occurs in the lower-cased cleaned text wherever the word holding
      it is embedded, provided that word carries no escape character and no
      upper-case letter. */
  lemma EmbeddedWordSurvivesCleanup(a: string, x: string, b: string, w: string)
    requires |x| > 0
    requires forall k :: 0 <= k < |x| ==> !InEscape(x[k]) && !('A' <= x[k] <= 'Z')
    requires Contains(x, w)
    ensures Contains(Lower(CleanupSql(a + x + b)), w)
  {
    CleanupAroundWord(a, x, b);
    var ua, ub := Unescape(a), Unescape(b);
    var tail := if HasLimit(ua + x + ub) then ub else ub + LimitClause;
    LowerKeepsOccurrence(ua, x, tail, w);
  }

  /** A column such as `credit_limit` counts as a limit clause: nothing is
      appended to a query that mentions it, wherever it stands. */
  lemma CreditLimitSuppressesAppend(a: string, b: string)
    ensures CleanupSql(a + "credit_limit" + b) == Unescape(a) + "credit_limit" + Unescape(b)
  {
    var x := "credit_limit";
    assert OccursAt(x, "limit", 7);
    ContainsIffOccurs(x, "limit");
    UnescapeAroundWord(a, x, b);
    LowerKeepsOccurrence(Unescape(a), x, Unescape(b), "limit");
  }

  /** The keywords the read-only guard rejects. */
  const DisallowedKeywords: seq<string> :=
    ["update", "delete", "drop", "insert", "create", "alter", "truncate", "merge"]

  /** The guard: one of the keywords occurs, in any casing, anywhere. */
  function HasDisallowedKeyword(sql: string): (r: bool)
    ensures r <==> exists k, i :: 0 <= k < |DisallowedKeywords| && OccursAt(Lower(sql), DisallowedKeywords[k], i)
  {
    assert forall k :: 0 <= k < |DisallowedKeywords| ==>
      (Contains(Lower(sql), DisallowedKeywords[k]) <==> exists i :: OccursAt(Lower(sql), DisallowedKeywords[k], i))
    by {
      forall k | 0 <= k < |DisallowedKeywords| {
        ContainsIffOccurs(Lower(sql), DisallowedKeywords[k]);
      }
    }
    exists k :: 0 <= k < |DisallowedKeywords| && Contains(Lower(sql), DisallowedKeywords[k])
  }

  /** The unanchored search `re.search("(?i)(update|delete|...)", sql)`. */
  ghost predicate RegexFindsKeyword(sql: string) {
    exists k, i :: 0 <= k < |DisallowedKeywords| && IgnoreCaseMatchAt(sql, DisallowedKeywords[k], i)
  }

  /** The guard as written (lower-case, then substring) accepts exactly
      the texts the case-insensitive regular expression matches. */
  lemma GuardIsRegexSearch(sql: string)
    ensures HasDisallowedKeyword(sql) <==> RegexFindsKeyword(sql)
  {
    forall k | 0 <= k < |DisallowedKeywords|
      ensures Contains(Lower(sql), DisallowedKeywords[k])
          <==> exists i :: IgnoreCaseMatchAt(sql, DisallowedKeywords[k], i)
    {
      LowerSearchIsIgnoreCaseSearch(sql, DisallowedKeywords[k]);
    }
  }

  /** No word boundaries: a column such as `created_at` trips the guard
      wherever it stands in the query. */
  lemma CreatedAtIsRejected(a: string, b: string)
    ensures HasDisallowedKeyword(CleanupSql(a + "created_at" + b))
  {
    assert OccursAt("created_at", "create", 0);
    ContainsIffOccurs("created_at", "create");
    assert DisallowedKeywords[4] == "create";
    EmbeddedWordSurvivesCleanup(a, "created_at", b, "create");
  }
}

=== FILE: text.dfy ===
/**
 * The Python string operations the tools rely on: `str.lower`, the `in`
 * substring test, `str.replace`, and `str.strip`.
 */
module Text {

  /** Python's `str.isspace()` character set (what `str.strip()` removes). */
  predicate IsSpace(c: char) {
    || ('\t' <= c <= '\r')
    || ('\U{1C}' <= c <= ' ')
    || c == '\U{85}' || c == '\U{A0}' || c == '\U{1680}'
    || ('\U{2000}' <= c <= '\U{200A}')
    || c == '\U{2028}' || c == '\U{2029}' || c == '\U{202F}' || c == '\U{205F}'
    || c == '\U{3000}'
  }

  /** Lower-case mapping of one character (ASCII letters only). */
  function LowerChar(c: char): char {
    if 'A' <= c <= 'Z' then (c as int - 'A' as int + 'a' as int) as char else c
  }

  /** `s.lower()`, character by character. */
  function Lower(s: string): (r: string)
    ensures |r| == |s|
    ensures forall i :: 0 <= i < |s| ==> r[i] == LowerChar(s[i])
  {
    if |s| == 0 then [] else [LowerChar(s[0])] + Lower(s[1..])
  }

  lemma LowerAppend(a: string, b: string)
    ensures Lower(a + b) == Lower(a) + Lower(b)
  {
  }

  predicate StartsWith(s: string, p: string) {
    |p| <= |s| && s[..|p|] == p
  }

  predicate EndsWith(s: string, p: string) {
    |p| <= |s| && s[|s| - |p|..] == p
  }

  /** Python's `w in s`. */
  predicate Contains(s: string, w: string)
    decreases |s|
  {
    StartsWith(s, w) || (|s| > 0 && Contains(s[1..], w))
  }

  /** `w` occurs in `s` starting at index `i`. */
  ghost predicate OccursAt(s: string, w: string, i: int) {
    0 <= i && i + |w| <= |s| && s[i..i + |w|] == w
  }

  /** The recursive substring test finds exactly the occurrences by index. */
  lemma {:induction false} ContainsIffOccurs(s: string, w: string)
    ensures Contains(s, w) <==> exists i :: OccursAt(s, w, i)
    decreases |s|
  {
    if exists i :: OccursAt(s, w, i) {
      var i :| OccursAt(s, w, i);
      if i == 0 {
        assert s[..|w|] == s[0..|w|];
      } else {
        assert s[1..][i - 1..i - 1 + |w|] == s[i..i + |w|];
        assert OccursAt(s[1..], w, i - 1);
        ContainsIffOccurs(s[1..], w);
        assert Contains(s[1..], w);
      }
    }
    if Contains(s, w) {
      if StartsWith(s, w) {
        assert OccursAt(s, w, 0);
      } else {
        ContainsIffOccurs(s[1..], w);
        var i :| OccursAt(s[1..], w, i);
        assert s[i + 1..i + 1 + |w|] == s[1..][i..i + |w|];
        assert OccursAt(s, w, i + 1);
      }
    }
  }

  /** An occurrence inside a slice of `s` is an occurrence in `s`. */
  lemma ContainsInSlice(s: string, i: int, j: int, w: string)
    requires 0 <= i <= j <= |s|
    requires Contains(s[i..j], w)
    ensures Contains(s, w)
  {
    ContainsIffOccurs(s[i..j], w);
    var k :| OccursAt(s[i..j], w, k);
    forall t | 0 <= t < |w| ensures s[i + k + t] == w[t] {
      assert s[i..j][k..k + |w|][t] == w[t];
    }
    assert s[i + k..i + k + |w|] == w;
    assert OccursAt(s, w, i + k);
    ContainsIffOccurs(s, w);
  }

  /** Python's `s.replace(p, r)` for a non-empty pattern: every leftmost,
      non-overlapping occurrence of `p` is replaced by `r`. */
  function ReplaceAll(s: string, p: string, r: string): string
    requires |p| > 0
    decreases |s|
  {
    if |s| < |p| then s
    else if s[..|p|] == p then r + ReplaceAll(s[|p|..], p, r)
    else [s[0]] + ReplaceAll(s[1..], p, r)
  }

  /** A replacement no longer than the pattern never lengthens the text. */
  lemma {:induction false} ReplaceAllNoLonger(s: string, p: string, r: string)
    requires |p| > 0 && |r| <= |p|
    ensures |ReplaceAll(s, p, r)| <= |s|
    decreases |s|
  {
    if |s| >= |p| {
      if s[..|p|] == p {
        ReplaceAllNoLonger(s[|p|..], p, r);
      } else {
        ReplaceAllNoLonger(s[1..], p, r);
      }
    }
  }

  /** A character found in neither the text nor the replacement is not in
      the result. */
  lemma {:induction false} ReplaceAllKeepsCharOut(s: string, p: string, r: string, c: char)
    requires |p| > 0 && c !in s && c !in r
    ensures c !in ReplaceAll(s, p, r)
    decreases |s|
  {
    if |s| >= |p| {
      if s[..|p|] == p {
        assert forall k :: 0 <= k < |s[|p|..]| ==> s[|p|..][k] == s[|p| + k];
        ReplaceAllKeepsCharOut(s[|p|..], p, r, c);
      } else {
        assert forall k :: 0 <= k < |s[1..]| ==> s[1..][k] == s[1 + k];
        ReplaceAllKeepsCharOut(s[1..], p, r, c);
      }
    }
  }

  /** Replacing a pattern that does not occur changes nothing. */
  lemma {:induction false} ReplaceAllAbsent(s: string, p: string, r: string)
    requires |p| > 0
    requires !Contains(s, p)
    ensures ReplaceAll(s, p, r) == s
    decreases |s|
  {
    if |s| >= |p| {
      assert !StartsWith(s, p);
      ReplaceAllAbsent(s[1..], p, r);
      assert s == [s[0]] + s[1..];
    }
  }

  /** A window that covers a character foreign to the pattern is no match. */
  lemma NoMatchThroughChar(a: string, c: char, b: string, p: string)
    requires c !in p
    requires |a| < |p| <= |a| + 1 + |b|
    ensures (a + [c] + b)[..|p|] != p
  {
    var s := a + [c] + b;
    assert s[..|p|][|a|] == c;
  }

  /** A character that does not appear in the pattern is never part of a
      match, so it splits the replacement in two. */
  lemma {:induction false} ReplaceAllAroundChar(a: string, c: char, b: string, p: string, r: string)
    requires |p| > 0
    requires c !in p
    ensures ReplaceAll(a + [c] + b, p, r) == ReplaceAll(a, p, r) + [c] + ReplaceAll(b, p, r)
    decreases |a|
  {
    var s := a + [c] + b;
    if |a| < |p| <= |s| {
      NoMatchThroughChar(a, c, b, p);
    }
    if |s| < |p| {
      assert ReplaceAll(a, p, r) == a && ReplaceAll(b, p, r) == b;
    } else if s[..|p|] == p {
      assert a[..|p|] == p;
      assert s[|p|..] == a[|p|..] + [c] + b;
      ReplaceAllAroundChar(a[|p|..], c, b, p, r);
    } else if |a| == 0 {
      assert s[1..] == b;
    } else {
      assert s[1..] == a[1..] + [c] + b;
      ReplaceAllAroundChar(a[1..], c, b, p, r);
      if |a| >= |p| {
        assert a[..|p|] == s[..|p|];
      } else {
        assert ReplaceAll(a[1..], p, r) == a[1..];
        assert a == [a[0]] + a[1..];
      }
    }
  }

  /** No match can start inside a leading word that lacks the pattern's
      first character, so the word is copied unchanged. */
  lemma {:induction false} ReplaceAllSkipsWordWithoutFirst(x: string, b: string, p: string, r: string)
    requires |p| > 0
    requires p[0] !in x
    ensures ReplaceAll(x + b, p, r) == x + ReplaceAll(b, p, r)
    decreases |x|
  {
    if |x| > 0 {
      var s := x + b;
      if |s| >= |p| {
        assert s[..|p|][0] == x[0] != p[0];
        assert s[1..] == x[1..] + b;
        ReplaceAllSkipsWordWithoutFirst(x[1..], b, p, r);
        assert x == [x[0]] + x[1..];
      } else {
        assert ReplaceAll(b, p, r) == b;
      }
    } else {
      assert x + b == b;
    }
  }

  /** No match starts inside a leading piece, so the piece is copied
      unchanged. */
  lemma {:induction false} ReplaceAllSkipsPiece(x: string, b: string, p: string, r: string)
    requires |p| > 0
    requires forall i :: 0 <= i < |x| ==> !StartsWith((x + b)[i..], p)
    ensures ReplaceAll(x + b, p, r) == x + ReplaceAll(b, p, r)
    decreases |x|
  {
    if |x| > 0 {
      var s := x + b;
      assert s[0..] == s;
      if |s| >= |p| {
        forall i | 0 <= i < |x[1..]| ensures !StartsWith((x[1..] + b)[i..], p) {
          assert (x[1..] + b)[i..] == s[i + 1..];
        }
        assert s[1..] == x[1..] + b;
        ReplaceAllSkipsPiece(x[1..], b, p, r);
        assert x == [x[0]] + x[1..];
      } else {
        assert ReplaceAll(b, p, r) == b;
      }
    } else {
      assert x + b == b;
    }
  }

  /** A non-empty word none of whose characters appear in the pattern
      survives the replacement intact and splits it in two. */
  lemma ReplaceAllAroundWord(a: string, x: string, b: string, p: string, r: string)
    requires |p| > 0
    requires |x| > 0
    requires forall k :: 0 <= k < |x| ==> x[k] !in p
    ensures ReplaceAll(a + x + b, p, r) == ReplaceAll(a, p, r) + x + ReplaceAll(b, p, r)
  {
    var c, y := x[0], x[1..];
    assert x == [c] + y;
    forall k | 0 <= k < |y| ensures y[k] != p[0] {
      assert y[k] == x[k + 1];
    }
    calc {
      ReplaceAll(a + x + b, p, r);
      { assert a + x + b == a + [c] + (y + b); }
      ReplaceAll(a + [c] + (y + b), p, r);
      { ReplaceAllAroundChar(a, c, y + b, p, r); }
      ReplaceAll(a, p, r) + [c] + ReplaceAll(y + b, p, r);
      { ReplaceAllSkipsWordWithoutFirst(y, b, p, r); }
      ReplaceAll(a, p, r) + [c] + (y + ReplaceAll(b, p, r));
      ReplaceAll(a, p, r) + x + ReplaceAll(b, p, r);
    }
  }

  /** Number of leading whitespace characters. */
  function LeadingSpaces(s: string): (n: nat)
    ensures n <= |s|
    ensures forall k :: 0 <= k < n ==> IsSpace(s[k])
    ensures n == |s| || !IsSpace(s[n])
  {
    if |s| == 0 || !IsSpace(s[0]) then 0 else 1 + LeadingSpaces(s[1..])
  }

  /** Number of trailing whitespace characters. */
  function TrailingSpaces(s: string): (n: nat)
    ensures n <= |s|
    ensures forall k :: |s| - n <= k < |s| ==> IsSpace(s[k])
    ensures n == |s| || !IsSpace(s[|s| - n - 1])
  {
    if |s| == 0 || !IsSpace(s[|s| - 1]) then 0 else 1 + TrailingSpaces(s[..|s| - 1])
  }

  /** `s.strip()`: the largest slice of `s` that neither starts nor ends
      with whitespace, everything cut away being whitespace. */
  function Strip(s: string): (r: string)
    ensures LeadingSpaces(s) + |r| <= |s|
    ensures r == s[LeadingSpaces(s)..LeadingSpaces(s) + |r|]
    ensures forall k :: 0 <= k < LeadingSpaces(s) ==> IsSpace(s[k])
    ensures forall k :: LeadingSpaces(s) + |r| <= k < |s| ==> IsSpace(s[k])
    ensures |r| == 0 || (!IsSpace(r[0]) && !IsSpace(r[|r| - 1]))
  {
    var t := s[LeadingSpaces(s)..];
    t[..|t| - TrailingSpaces(t)]
  }

  /** Text with no whitespace at either end is its own strip. */
  lemma StripTrimmed(s: string)
    requires |s| == 0 || (!IsSpace(s[0]) && !IsSpace(s[|s| - 1]))
    ensures Strip(s) == s
  {
    var t := s[LeadingSpaces(s)..];
    assert t == s;
  }

  lemma StripIdempotent(s: string)
    ensures Strip(Strip(s)) == Strip(s)
  {
    StripTrimmed(Strip(s));
  }

  /** Stripping never creates an occurrence. */
  lemma StripKeepsAbsence(s: string, w: string)
    requires !Contains(s, w)
    ensures !Contains(Strip(s), w)
  {
    var r := Strip(s);
    var i := LeadingSpaces(s);
    if Contains(r, w) {
      ContainsInSlice(s, i, i + |r|, w);
    }
  }

  /** The Markdown code fence. */
  const Fence := "```"

  /** After a leftmost scan removes every fence, no fence is left, because
      each run of backticks shrinks to its length modulo three and runs
      never merge. The second conjunct is what the induction carries. */
  lemma {:induction false} FenceRemovalLeavesNoFence(s: string)
    ensures !Contains(ReplaceAll(s, Fence, ""), Fence)
    ensures StartsWith(ReplaceAll(s, Fence, ""), "``") ==> StartsWith(s, "``")
    decreases |s|
  {
    var out := ReplaceAll(s, Fence, "");
    if |s| < 3 {
      assert out == s;
      ContainsIffOccurs(out, Fence);
    } else if s[..3] == Fence {
      FenceRemovalLeavesNoFence(s[3..]);
      assert out == ReplaceAll(s[3..], Fence, "");
    } else {
      var rest := ReplaceAll(s[1..], Fence, "");
      FenceRemovalLeavesNoFence(s[1..]);
      assert out == [s[0]] + rest;
      assert out[1..] == rest;
      if StartsWith(out, "``") {
        FenceRemovalKeepsLeadingChar(s[1..]);
      }
    }
  }

  /** A fence-free output that starts with a backtick came from text that
      starts with one. */
  lemma FenceRemovalKeepsLeadingChar(t: string)
    requires |ReplaceAll(t, Fence, "")| > 0 && ReplaceAll(t, Fence, "")[0] == '`'
    ensures |t| > 0 && t[0] == '`'
  {
  }

  /** An occurrence in the middle piece is an occurrence in the whole. */
  lemma ContainsInMiddle(p: string, x: string, q: string, w: string)
    requires Contains(x, w)
    ensures Contains(p + x + q, w)
  {
    var s := p + x + q;
    assert s[|p|..|p| + |x|] == x;
    ContainsInSlice(s, |p|, |p| + |x|, w);
  }

  /** An occurrence in the lower-cased middle piece is an occurrence in the
      lower-cased whole. */
  lemma LowerKeepsLoweredOccurrence(p: string, x: string, q: string, w: string)
    requires Contains(Lower(x), w)
    ensures Contains(Lower(p + x + q), w)
  {
    LowerAppend(p + x, q);
    LowerAppend(p, x);
    ContainsInMiddle(Lower(p), Lower(x), Lower(q), w);
  }

  /** Lower-casing keeps an occurrence that sits in a piece with no
      upper-case letter. */
  lemma LowerKeepsOccurrence(p: string, x: string, q: string, w: string)
    requires forall k :: 0 <= k < |x| ==> !('A' <= x[k] <= 'Z')
    requires Contains(x, w)
    ensures Contains(Lower(p + x + q), w)
  {
    assert Lower(x) == x;
    LowerAppend(p + x, q);
    LowerAppend(p, x);
    assert Lower(p + x + q) == Lower(p) + x + Lower(q);
    ContainsInMiddle(Lower(p), x, Lower(q), w);
  }

  /** How `(?i)` compares a text character with a lower-case pattern
      character: equal, or its upper-case form. */
  predicate MatchesIgnoringCase(c: char, p: char) {
    c == p || ('a' <= p <= 'z' && c as int == p as int - 32)
  }

  /** The regular expression `(?i)w` matches at index `i`. */
  ghost predicate IgnoreCaseMatchAt(s: string, w: string, i: int) {
    0 <= i && i + |w| <= |s| && forall j :: 0 <= j < |w| ==> MatchesIgnoringCase(s[i + j], w[j])
  }

  /** A pattern without upper-case letters. */
  predicate LowerCaseWord(w: string) {
    forall j :: 0 <= j < |w| ==> !('A' <= w[j] <= 'Z')
  }

  /** For a lower-case word, searching the lower-cased text is the
      case-insensitive search. */
  lemma LowerSearchIsIgnoreCaseSearch(s: string, w: string)
    requires LowerCaseWord(w)
    ensures Contains(Lower(s), w) <==> exists i :: IgnoreCaseMatchAt(s, w, i)
  {
    ContainsIffOccurs(Lower(s), w);
    forall i | 0 <= i && i + |w| <= |s|
      ensures OccursAt(Lower(s), w, i) <==> IgnoreCaseMatchAt(s, w, i)
    {
      if OccursAt(Lower(s), w, i) {
        forall j | 0 <= j < |w| ensures MatchesIgnoringCase(s[i + j], w[j]) {
          assert LowerChar(s[i + j]) == Lower(s)[i..i + |w|][j];
        }
      }
      if IgnoreCaseMatchAt(s, w, i) {
        forall j | 0 <= j < |w| ensures Lower(s)[i + j] == w[j] {
          assert MatchesIgnoringCase(s[i + j], w[j]);
        }
        assert Lower(s)[i..i + |w|] == w;
      }
    }
  }
}

=== FILE: validation.dfy ===
/**
 * `run_bigquery_validation`: clean the query, refuse it when it mentions a
 * DML/DDL keyword, otherwise run it and turn the engine's answer into the
 * `{query_result, error_message}` dictionary. The engine is a parameter
 * mapping the submitted text to what the BigQuery call does: raise with a
 * message, or return a result with or without a schema.
 */
module Validation {
  import opened Wrappers
  import opened Text
  import opened SqlCleanup
  import opened Rows
  import opened Session
  import opened Numbers

  /** A finished query job's result: the schema's column names and the rows. */
  datatype QueryResult = QueryResult(schema: seq<string>, rows: seq<Row>)

  /** What `get_bq_client().query(sql).result()` and the row iteration do. */
  datatype EngineOutcome = Raised(message: string) | Returned(result: QueryResult)

  /** The returned `final_result` dictionary. */
  datatype FinalResult = FinalResult(queryResult: Option<seq<Row>>, errorMessage: Option<string>)

  /** The dictionary, the session state afterwards, and the text handed to
      the engine (`None` when the engine was not called). */
  datatype ValidationRun = ValidationRun(result: FinalResult, state: State, submitted: Option<string>)

  const InvalidPrefix := "Invalid SQL: "
  const DisallowedReason := "Contains disallowed DML/DDL operations."
  const DisallowedMessage := InvalidPrefix + DisallowedReason
  const NoResultsMessage := "Valid SQL." + " Query executed successfully (no results)."

  function RunBigqueryValidation(sqlString: string, engine: string -> EngineOutcome, state: State): (v: ValidationRun)
    ensures var cleaned := CleanupSql(sqlString);
      HasDisallowedKeyword(cleaned) ==> v == ValidationRun(FinalResult(None, Some(DisallowedMessage)), state, None)
    ensures var cleaned := CleanupSql(sqlString);
      !HasDisallowedKeyword(cleaned) ==> (
        && v.submitted == Some(cleaned)
        && match engine(cleaned)
           case Raised(m) =>
             v.result == FinalResult(None, Some(InvalidPrefix + m)) && v.state == state
           case Returned(res) =>
             if |res.schema| == 0 then
               v.result == FinalResult(None, Some(NoResultsMessage)) && v.state == state
             else
               && v.result.errorMessage.None?
               && v.result.queryResult == Some(ShapeRows(res.rows))
               && v.state == state.(queryResult := v.result.queryResult))
  {
    var cleaned := CleanupSql(sqlString);
    if HasDisallowedKeyword(cleaned) then
      ValidationRun(FinalResult(None, Some(DisallowedMessage)), state, None)
    else
      match engine(cleaned)
      case Raised(m) => ValidationRun(FinalResult(None, Some(InvalidPrefix + m)), state, Some(cleaned))
      case Returned(res) =>
        if |res.schema| == 0 then
          ValidationRun(FinalResult(None, Some(NoResultsMessage)), state, Some(cleaned))
        else
          var rows := ShapeRows(res.rows);
          ValidationRun(FinalResult(Some(rows), None), state.(queryResult := Some(rows)), Some(cleaned))
  }

  /** The validation outcome as a tagged variant. */
  datatype Outcome = Rejected | Invalid(error: string) | ValidEmpty | ValidWithRows(rows: seq<Row>)

  /** Reads the dictionary back as an outcome. */
  function Decode(r: FinalResult): Option<Outcome> {
    if r.queryResult.Some? then
      (if r.errorMessage.None? then Some(ValidWithRows(r.queryResult.value)) else None)
    else if r.errorMessage.None? then None
    else
      var m := r.errorMessage.value;
      if m == DisallowedMessage then Some(Rejected)
      else if m == NoResultsMessage then Some(ValidEmpty)
      else if StartsWith(m, InvalidPrefix) then Some(Invalid(m[|InvalidPrefix|..]))
      else None
  }

  /** The outcome the validation should report, stated from the guard and
      the engine directly. */
  function Expected(sqlString: string, engine: string -> EngineOutcome): Outcome {
    var cleaned := CleanupSql(sqlString);
    if HasDisallowedKeyword(cleaned) then Rejected
    else match engine(cleaned)
      case Raised(m) => Invalid(m)
      case Returned(res) => if |res.schema| == 0 then ValidEmpty else ValidWithRows(ShapeRows(res.rows))
  }

  /** The dictionary always decodes to exactly the expected outcome, except
      for an engine message that spells out the guard's own message, which
      reads back as a rejection. */
  lemma ResultDecodesToOutcome(sqlString: string, engine: string -> EngineOutcome, state: State)
    ensures var e := Expected(sqlString, engine);
      e != Invalid(DisallowedReason) ==>
        Decode(RunBigqueryValidation(sqlString, engine, state).result) == Some(e)
  {
    var v := RunBigqueryValidation(sqlString, engine, state);
    var e := Expected(sqlString, engine);
    assert DisallowedMessage[0] != NoResultsMessage[0];
    if e.Invalid? {
      var m := InvalidPrefix + e.error;
      assert m[..|InvalidPrefix|] == InvalidPrefix;
      assert m[|InvalidPrefix|..] == e.error;
      assert m[0] != NoResultsMessage[0];
      if e.error != DisallowedReason {
        assert DisallowedMessage[|InvalidPrefix|..] == DisallowedReason;
      }
    }
  }

  /** An engine error whose text equals the guard's reason produces the
      same dictionary as a rejection by the guard. */
  lemma EngineErrorCanImitateRejection(sqlString: string, engine: string -> EngineOutcome, state: State)
    requires !HasDisallowedKeyword(CleanupSql(sqlString))
    requires engine(CleanupSql(sqlString)) == Raised(DisallowedReason)
    ensures RunBigqueryValidation(sqlString, engine, state).result == FinalResult(None, Some(DisallowedMessage))
  {
  }

  /** `state["query_result"]` changes only on the rows path, and no other
      key ever changes. */
  lemma OnlyRowsPathWritesState(sqlString: string, engine: string -> EngineOutcome, state: State)
    ensures var v := RunBigqueryValidation(sqlString, engine, state);
      && v.state.sqlQuery == state.sqlQuery
      && v.state.metadataHint == state.metadataHint
      && v.state.metadataAnswer == state.metadataAnswer
      && (v.state != state ==> Expected(sqlString, engine).ValidWithRows?)
  {
  }

  /** Cleaning is done once before the guard and the engine: the engine
      receives text that already carries a `limit`. */
  lemma SubmittedQueryHasLimit(sqlString: string, engine: string -> EngineOutcome, state: State)
    ensures var v := RunBigqueryValidation(sqlString, engine, state);
      v.submitted.Some? ==> HasLimit(v.submitted.value) && !HasDisallowedKeyword(v.submitted.value)
  {
  }

  /** A query with more rows than the cap comes back with exactly the cap,
      the first rows in order. */
  lemma RowCapOnResults(sqlString: string, engine: string -> EngineOutcome, state: State)
    requires Expected(sqlString, engine).ValidWithRows?
    ensures var v := RunBigqueryValidation(sqlString, engine, state);
      var res := engine(CleanupSql(sqlString)).result;
      && v.result.queryResult.Some?
      && |v.result.queryResult.value| == Min(|res.rows|, Numbers.MaxNumRows)
      && forall i :: 0 <= i < |v.result.queryResult.value| ==> v.result.queryResult.value[i] == ShapeRow(res.rows[i])
  {
  }
}

=== FILE: wrappers.dfy ===
/** Option and Result, used for Python's `None` and for exceptions that propagate. */
module Wrappers {

  datatype Option<+T> = None | Some(value: T)

  datatype Result<+R, +E> = Success(value: R) | Failure(error: E)
}
